=== FILE: README.md ===
# css_inliner in Dafny

A model of the string pipeline at the heart of `css_inliner`. The program moves the rules
of an HTML document's `<style>` blocks into the `style` attributes of the elements they
select. The model covers:

- **Fragment splitter.** This is `_add_closing_tag` and `divide_declarations_from_style_tags`
  (module `Splitter`). The text of every style block is cut at each `}`. Every piece gets
  its `}` back and is stripped. Pieces that were only whitespace are dropped.
- **Declaration formatter.** This is `format_css_content_for_inline` (module `Formatter`).
  The stripped declaration text is cut into lines. Each line loses its `;` characters and
  gains one at its end. The lines are joined by single spaces.
- **Rule accumulator.** This is `process_css_declarations` (module `Declarations`). The CSS
  parser is an uninterpreted function from a fragment to either `SyntaxErr` or a sequence
  of rules. A rule is `Shaped(selectorText, cssText)` or `Unshaped`. A rejected fragment
  goes to the failed list. Every shaped rule appends its formatted declarations to the
  record under its exact selector text.
- **Selector grouping and classification.** This is `inline_css_declarations` and the loop
  in `main` (modules `Selectors` and `Pipeline`). Selector texts are cut at commas and
  stripped. The declarations of a selector text are joined by spaces. Each group is split
  into pseudo selectors (holding a `:`) and plain ones. A group with no plain selectors is
  skipped, and a group with plain selectors has its declarations merged into every
  element one of them matches.
- **Style-attribute merge.** This is `apply_selectors_to_elements_as_inline_css` (module
  `StyleMerge`). The previous `style` value is absent, a string or a list of strings. An
  element is a position in a sequence of such values. `soup.select` is an uninterpreted
  function from a selector to the set of positions it matches.

Supporting modules:

- `Text`: the Python `str` operations the program uses. These are `strip()`, `split` on
  one character, `join`, `splitlines`, `replace(c, "")` and `rstrip(c)`. `LStrip` and
  `RStrip` are helpers that `strip()` is built from; the program calls neither directly.
- `Seqs`: `map`, `filter` and `itertools.chain`.
- `OrderedDict`: Python's insertion-ordered `dict` as a sequence of key/value pairs. It
  models `d[k] = v`, `setdefault` and `setdefault(k, []).append(v)`.
- `Wrappers`: an `Option` type.

Three behaviours of the code worth knowing:

- The formatter strips only the whole declaration text, not each line
  (`css_inliner.py:76`).
- The splitter appends `}` to every piece, the last one included (`css_inliner.py:88`).
- The map of pseudo-selector declarations is built but never read
  (`css_inliner.py:201`), so pseudo rules never reach the document. `Pipeline.MainLoopDoc`
  shows the document does not depend on that map at all.

## Model

| member | source | states |
|---|---|---|
| Splitter.Divide | css_inliner.py:84-94 | `divide_declarations_from_style_tags` over the block texts; what it yields is stated by `Splitter.DivideFragments`, `Splitter.BlockFragments`, `Splitter.DivideIsPerBlock` and `Splitter.RulesRoundTrip`. |
| Splitter.CloseAll | css_inliner.py:88 | `map(_add_closing_tag, ...)` over a block's pieces; every closed `}`-free piece is a fragment (`Splitter.CloseAllFragments`), and the filter keeps exactly the closed pieces that were not blank (`Splitter.KeepClosedPieces`). |
| Splitter.IsKept | css_inliner.py:92 | The filter `x.strip() != "}"`; on a closed piece it holds exactly when the piece was not blank (`Splitter.ClosedPieceKept`). |
| Splitter.CloseAllFragments | css_inliner.py:88 | Closing `}`-free pieces gives fragments only. |
| Splitter.KeepClosedPieces | css_inliner.py:88-92 | Closing the pieces and filtering them gives the non-blank pieces, in order, left-stripped and closed by `}`. |
| Splitter.AddClosingTag | css_inliner.py:66-67 | Appending `}` and stripping removes only the piece's leading whitespace, because `}` is not whitespace. |
| Splitter.ClosedPieceIsFragment | css_inliner.py:66-67 | A piece cut at `}` becomes a fragment that ends with its only `}` and has no leading whitespace. |
| Splitter.ClosedPieceKept | css_inliner.py:92 | A closed piece passes the `strip() != "}"` filter exactly when the piece was not whitespace-only. |
| Splitter.DivideFragments | css_inliner.py:84-94 | Every fragment of every block ends with `}`, holds no other `}`, and does not start with whitespace. |
| Splitter.BlockFragments | css_inliner.py:87-93 | A block yields, in order, each non-blank piece of its text cut at `}`, left-stripped and closed by `}`; blank pieces are dropped. |
| Splitter.BlockFragmentCount | css_inliner.py:88 | A block never yields more fragments than it has `}` characters plus one. |
| Splitter.DivideAppend | css_inliner.py:87-93 | The fragments of two runs of blocks are the first run's fragments followed by the second's. |
| Splitter.DivideIsPerBlock | css_inliner.py:87-93 | The result is each block's own fragments concatenated in block order. |
| Splitter.RulesRoundTrip | css_inliner.py:84-94 | A block made of n brace-closed rules and trailing blank text yields exactly those n rules, in order, each without its leading whitespace (the line breaks and indentation before it) and closed by its `}`. |
| Splitter.TwoRulesOnLines | css_inliner.py:84-94 | Two rules on separate lines, the second indented, yield exactly the two rules; the line break and indentation between them do not reach the fragments. |
| Splitter.SingleRule | css_inliner.py:84-94 | A block holding one rule that starts with its selector yields that rule as its only fragment. |
| Splitter.SingleRuleExample | css_inliner.py:84-94 | The block `a{color:red}` yields exactly `["a{color:red}"]`. |
| Formatter.Format | css_inliner.py:75-81 | `format_css_content_for_inline`; its result is stated by `Formatter.FormatEnd`, `Formatter.FormatShape` and `Formatter.FormatSingleLine`. |
| Formatter.FormatItem | css_inliner.py:78 | A formatted line ends with `;` and holds no other `;`. |
| Formatter.FormatItems | css_inliner.py:77-79 | One formatted item per line, in line order. |
| Formatter.FormatEnd | css_inliner.py:75-81 | Blank or empty text formats to `""`; any other text formats to a string ending in `;`. |
| Formatter.FormatShape | css_inliner.py:75-81 | Cutting the result at `;` gives back each line with its `;` removed, the later lines behind one space; so there are exactly as many `;` as lines in the stripped text. |
| Formatter.FormatSingleLine | css_inliner.py:75-81 | A single line without edge whitespace only loses its `;` characters and gains one at its end. |
| Formatter.FormatPlainLine | css_inliner.py:75-81 | A single declaration line without edge whitespace, line breaks or `;` formats to itself followed by one `;`. |
| Formatter.FormatExample | css_inliner.py:75-81 | `color:red` formats to `color:red;`. |
| Declarations.Process | css_inliner.py:97-123 | `process_css_declarations` with the parser as a parameter; its failed list is stated by `Declarations.ProcessFailed` and its record by `Declarations.ProcessRecord`. |
| Declarations.ProcessFrom | css_inliner.py:102-119 | The loop over the fragments from a given state; its failed list and record are stated by `Declarations.ProcessFromFailed` and `Declarations.ProcessFromRecord`. |
| Declarations.ProcessFromFailed | css_inliner.py:102-107 | The loop appends to the failed list exactly the rejected fragments, in order. |
| Declarations.ProcessFromRecord | css_inliner.py:102-119 | The loop's record is the given one with the shaped rules of every accepted fragment appended, fragment by fragment and rule by rule. |
| Declarations.AddRule | css_inliner.py:109-119 | The body for one parsed rule: a shaped rule appends its formatted declarations under its selector text, and an unshaped one (the `AttributeError` branch) changes nothing; stated through `Declarations.AddRulesIsAccumulate` and `Declarations.UnshapedIgnored`. |
| Declarations.AddRules | css_inliner.py:109-119 | The loop over one fragment's rules; it equals accumulating the fragment's shaped entries (`Declarations.AddRulesIsAccumulate`), and unshaped rules add nothing (`Declarations.UnshapedIgnored`). |
| Declarations.Step | css_inliner.py:102-119 | A rejected fragment is appended to the failed list and leaves the record alone; an accepted one leaves the failed list alone. |
| Declarations.ProcessFailed | css_inliner.py:100-107 | The failed list is the rejected fragments, verbatim and in input order; a fragment is in it exactly when the parser rejects it. |
| Declarations.AddRulesIsAccumulate | css_inliner.py:109-119 | The rules of one fragment append the formatted declarations of its shaped rules in order. |
| Declarations.UnshapedIgnored | css_inliner.py:109-119 | Rules without the selector/declaration shape add nothing: a fragment adds exactly what its shaped rules add. |
| Declarations.AccumulateKeys | css_inliner.py:116-117 | The record's keys are the distinct selector texts in first-seen order. |
| Declarations.AccumulateLists | css_inliner.py:116-117 | Under each selector text, the record lists the declarations of exactly the entries with that text, in encounter order. |
| Declarations.AccumulateTotal | css_inliner.py:116-117 | Keys stay distinct, and each entry adds exactly one declaration string to the record. |
| Declarations.EntriesCount | css_inliner.py:109-119 | There is one entry per shaped rule. |
| Declarations.ProcessRecord | css_inliner.py:97-123 | The record has one key per distinct selector text of the accepted fragments' shaped rules, in first-seen order. Each key lists those rules' formatted declarations in encounter order. The total count equals the number of such shaped rules. |
| Declarations.SameSelectorMerges | css_inliner.py:102-119 | Two one-rule fragments with the same selector text give one record entry listing both formatted declarations in fragment order. |
| OrderedDict.Put | css_inliner.py:133 | `d[k] = v` makes `k` map to `v`, leaves other keys as they were, keeps an existing key's position or appends a new key last, and keeps keys distinct. |
| OrderedDict.SetDefault | css_inliner.py:201 | `setdefault` keeps the value already stored for a key; a new key gets the given value, appended last. |
| OrderedDict.AppendTo | css_inliner.py:116-117 | `setdefault(k, []).append(v)` extends `k`'s list (an empty one if `k` is new) by `v` and touches no other key. |
| OrderedDict.AppendToTotal | css_inliner.py:116-117 | On a dict with distinct keys, every append adds exactly one item. |
| Selectors.SplitSelectors | css_inliner.py:129-131 | A selector text with k commas yields k+1 parts. |
| Selectors.SplitSelectorsParts | css_inliner.py:129-131 | No part holds a comma or whitespace at either end. |
| Selectors.SplitSelectorsOfJoin | css_inliner.py:129-131 | Comma-free parts joined by commas split back into those parts, each stripped. |
| Selectors.SplitSelectorsRoundTrip | css_inliner.py:129-131 | Joining a non-empty group of stripped, comma-free selectors by commas and splitting again gives the group back. |
| Selectors.StripAll | css_inliner.py:130 | `map(str.strip, ...)`; every part it gives has no edge whitespace (`Selectors.SplitSelectorsParts`), and parts that already have none come back unchanged (`Selectors.StripAllNoEdge`). |
| Selectors.StripAllNoEdge | css_inliner.py:130 | Stripping parts without whitespace at either end leaves them as they are. |
| Selectors.InlineFrom | css_inliner.py:128-133 | The loop of `inline_css_declarations` from a given dict; its keys and values are stated by `Selectors.InlineFromKeys` and `Selectors.InlineFromGet`. |
| Selectors.InlineFromKeys | css_inliner.py:128-133 | The loop adds the groups not yet present, in first-seen order, and keeps keys distinct. |
| Selectors.InlineFromGet | css_inliner.py:128-133 | After the loop a group holds the joined declarations of the last entry splitting into it, or its earlier value when no entry does. |
| Selectors.InlineDeclarations | css_inliner.py:126-134 | `inline_css_declarations`; its keys and values are stated by `Selectors.InlineDeclarationsSpec` and `Selectors.InlineValue`. |
| Selectors.InlineDeclarationsSpec | css_inliner.py:126-134 | The groups are the distinct splits of the selector texts in first-seen order, and each holds the joined declarations of the last selector text splitting into it; so a later text with the same split overwrites an earlier one. |
| Selectors.LastForAt | css_inliner.py:126-133 | The entry that decides a group is the last one whose selector text splits into it. |
| Selectors.InlineValue | css_inliner.py:126-134 | An entry with no later entry of the same group ends up with its declarations joined by single spaces. |
| Selectors.Pseudo | css_inliner.py:198-200 | `filter(lambda x: ":" in x, ...)`; exactly the selectors with a `:`, as stated by `Selectors.Partition` and `Selectors.Classify`. |
| Selectors.Plain | css_inliner.py:203-205 | `filter(lambda x: ":" not in x, ...)`; exactly the selectors without a `:`, as stated by `Selectors.Partition` and `Selectors.Classify`. |
| Selectors.Partition | css_inliner.py:198-205 | Every selector of a group is in exactly one of the pseudo and plain filters, as often as it occurs in the group. |
| Selectors.Classify | css_inliner.py:198-205 | The plain selectors are exactly the group's selectors without `:`, the pseudo ones exactly those with one, and their counts add up to the group's size. |
| StyleMerge.Merge | css_inliner.py:143-155 | The new value never ends with `;`, and an absent, empty-string or empty-list previous value gives the declarations with every trailing `;` removed. |
| StyleMerge.Falsy | css_inliner.py:145 | `not previous_style_attr`: a missing attribute, `""` or `[]`; `StyleMerge.Merge` states the result for these, and `StyleMerge.MergeEmptyToken` shows `[""]` is not among them. |
| StyleMerge.MergeStr | css_inliner.py:151-154 | A non-empty string value is kept as a prefix, followed by `"; "` and the declarations without trailing `;`. |
| StyleMerge.MergeTokens | css_inliner.py:147-150 | A non-empty list value is joined by `"; "` and followed by `"; "` and the declarations without trailing `;`. |
| StyleMerge.MergeTokensAsString | css_inliner.py:147-154 | A list value whose join is not empty merges like the string `"; ".join(tokens)`. |
| StyleMerge.MergeEmptyToken | css_inliner.py:145-154 | The list `[""]` is truthy although its join is empty, so it keeps a leading `"; "` that the empty string does not. |
| StyleMerge.MergeTerminated | css_inliner.py:151-154 | A non-empty string style merged with one declaration that ends in a single `;` gives the old value, `"; "`, and the declaration without that `;`. |
| StyleMerge.MergeExample | css_inliner.py:151-154 | `font-weight:bold` merged with `color:red;` gives `font-weight:bold; color:red`. |
| StyleMerge.ApplySelectors | css_inliner.py:137-155 | `apply_selectors_to_elements_as_inline_css`; keeps the document's length, and what each element becomes is stated by `StyleMerge.ApplySelectorsAt`. |
| StyleMerge.ApplySelector | css_inliner.py:141-155 | The loop over one selector's matches; it keeps the document's length, and exactly the matched elements change (`StyleMerge.ApplySelectorAt`). |
| StyleMerge.ApplySelectorAt | css_inliner.py:141-155 | One selector rewrites exactly the elements it matches, each with the merged value as a string. |
| StyleMerge.ApplySelectorsAt | css_inliner.py:137-155 | Each element receives the declarations once for every selector of the group that matches it, in selector order. |
| StyleMerge.ApplySelectorsUnmatched | css_inliner.py:137-155 | An element no selector matches keeps its style exactly. |
| StyleMerge.HitsZero | css_inliner.py:140-141 | An element is merged into zero times exactly when none of the selectors matches it. |
| StyleMerge.MergeTwice | css_inliner.py:137-155 | An element with no style that two selectors of one group match gets the declarations twice, separated by `"; "`. |
| Pipeline.MainLoop | css_inliner.py:196-211 | The loop over the grouped declarations; keeps the document's length, and its document and pseudo map are stated by `Pipeline.MainLoopDoc` and `Pipeline.MainLoopPseudo`. |
| Pipeline.LoopStep | css_inliner.py:197-211 | One iteration: it keeps the document's length; the pseudo tuple keeps its first value, and a group without plain selectors leaves the document alone, as `Pipeline.MainLoopDoc` and `Pipeline.MainLoopPseudo` state over the whole loop. |
| Pipeline.MainLoopDoc | css_inliner.py:196-211 | Skipping a group with no plain selectors is the same as applying none, and the pseudo map plays no part in the document. |
| Pipeline.ApplyAllAt | css_inliner.py:197-211 | Each element ends with every group's declarations merged in once per matching plain selector of that group, in group order. |
| Pipeline.Inline | css_inliner.py:184-211 | The inlining loop of `main`: no element is added or removed; each element is stated by `Pipeline.InlineDoc` and the failed list by `Pipeline.InlineFailed`. |
| Pipeline.InlineDoc | css_inliner.py:184-211 | Over the inlining loop, each element ends as the group-by-group merge of the grouped declarations of the style blocks. |
| Pipeline.ElementAfterUnmatched | css_inliner.py:196-211 | An element that no plain selector of any group matches keeps its style, whatever the pseudo selectors match: groups are applied through their plain selectors only. |
| Pipeline.InlineUnmatched | css_inliner.py:184-211 | Over the inlining loop, an element that no plain selector of the style blocks matches keeps its style exactly; pseudo selectors never touch it. |
| Pipeline.InlineFailed | css_inliner.py:184-191 | The fragments handed back for reinsertion are the parser-rejected fragments of the blocks, verbatim and in order. |
| Pipeline.MainLoopPseudo | css_inliner.py:196-201 | The pseudo map keeps, for each tuple of pseudo selectors, the declarations of the first group with that tuple, the empty tuple included. |
| Text.Strip | css_inliner.py:76 | `str.strip()` with no argument; stated by `Text.StripBlank`, `Text.StripEdges` and `Text.StripNoEdge`. |
| Text.StripNoEdge | css_inliner.py:130 | Text without whitespace at either end is left alone by `strip()`. |
| Text.StripBlank | css_inliner.py:76 | `strip()` gives the empty string exactly when the text is all whitespace. |
| Text.StripEdges | css_inliner.py:130 | What `strip()` leaves has no whitespace at either end. |
| Text.Split | css_inliner.py:88 | `s.split(c)`: one piece more than there are `c`, none holding `c`; `Text.SplitThenJoin` and `Text.JoinThenSplit` tie it to `Text.Join`. |
| Text.Join | css_inliner.py:80 | `sep.join(xs)`; the inverse of `Text.Split` on `c`-free pieces (`Text.JoinThenSplit`). |
| Text.SplitThenJoin | css_inliner.py:88 | Joining the pieces of `split(c)` with `c` gives back the text. |
| Text.JoinThenSplit | css_inliner.py:88 | Splitting at `c` a join by `c` of `c`-free pieces gives back the pieces. |
| Text.SplitLines | css_inliner.py:76 | `s.splitlines()`: empty exactly for the empty text, and no line holds a line break; `Text.SplitLinesThenJoin` gives the text back from the lines. |
| Text.SplitLinesThenJoin | css_inliner.py:76 | For text whose only line breaks are `\n` and which does not end with one, joining `splitlines()` by `\n` gives back the text. |
| Text.RemoveChar | css_inliner.py:78 | `s.replace(c, "")`: no `c` is left, and the length drops by the number of `c`; `Text.RemoveCharIsJoinedSplit` relates it to `Text.Split`. |
| Text.RemoveCharIsJoinedSplit | css_inliner.py:78 | `replace(c, "")` is the join of the pieces of `split(c)`. |
| Text.RStripChar | css_inliner.py:146-154 | `rstrip(c)` keeps a prefix, removes only `c` characters, and leaves no `c` at the end. |
| Seqs.Map | css_inliner.py:88 | `map(f, xs)`: one image per element, in order. |
| Seqs.Filter | css_inliner.py:92 | `filter(p, xs)`: only elements of `xs` satisfying `p`, and all of them; `Seqs.FilterAppend` keeps the order across concatenation. |
| Seqs.Flatten | css_inliner.py:92 | `chain(*xss)`; `Seqs.FlattenAppend` states that it concatenates in order, and `Seqs.FlattenAll` that a property of every inner element holds of every chained element. |
| Seqs.FlattenAll | css_inliner.py:92 | What holds of every element of every inner sequence holds of every element of the chain. |
| Seqs.FlattenAppend | css_inliner.py:92 | Chaining two runs of sequences is chaining each run and concatenating the results. |
| Seqs.FilterAppend | css_inliner.py:92 | Filtering a concatenation filters each part and concatenates, so the order is kept. |

## Left out

- Command-line parsing, reading and writing files, and the logger setup in `main`: these are I/O and global state.
- The CSS parser's own work (cssutils): it is an uninterpreted function from a fragment to `SyntaxErr` or a rule sequence. Any other exception the parser raises, from `parseString` (css_inliner.py:104) or while its result is iterated (css_inliner.py:109), escapes the `except` at css_inliner.py:105 and aborts the run; it is not modelled.
- Selector matching by `soup.select`: it is an uninterpreted function from a selector to the set of matched element positions. Any error it raises is not modelled.
- `_remove_style_tags_from_soup` and `insert_unprocessed_declarations` (css_inliner.py:213-216): they remove every `<style>` element and append a fresh one to `<head>` when the document has one (css_inliner.py:164), which changes the element set; `Pipeline.Inline` stops before them. The list they reinsert is described by `Pipeline.InlineFailed`.
- Style blocks with no child node (an empty `<style></style>`) or several child nodes: for these `tag.string` is `None`, so css_inliner.py:88 raises `AttributeError` and the run aborts. The model takes every block as its text, so an empty block yields no fragments instead of that error.
- The third branch of the merge, where the previous `style` value is truthy but neither a string nor a list and the new value is `""`. BeautifulSoup only ever gives strings or lists.
- StyleMerge.ApplySelectorsAt, Pipeline.InlineDoc, Pipeline.InlineUnmatched: selector matching is one fixed function of the selector text, taken on the document before inlining. In the program `soup.select` (css_inliner.py:141) runs on the document as earlier merges left it, so a selector that reads the `style` attribute (such as `[style]`) can match elements in the program that it does not match in the model. These lemmas describe the program only for selectors whose matches do not depend on `style` attributes.
- StyleMerge.MergeTokensAsString: the list/string equivalence is stated only when the joined list is not empty. For `[""]` it does not hold, as `StyleMerge.MergeEmptyToken` shows.
- The exact Unicode sets of Python's `str.isspace` and `str.splitlines` are enumerated in `Text.IsWhitespace` and `Text.IsLineBreak`; no other Unicode behaviour is modelled.
- `setup.py`: packaging only.

=== FILE: declarations.dfy ===
/**
 The rule accumulator: every fragment is handed to the CSS parser; a fragment the parser
 rejects with a syntax error goes to the failed list verbatim, and every rule of a fragment
 it accepts either adds its formatted declarations to the record under its exact selector
 text or, when it lacks the selector/declaration shape, is skipped.
 */
module Declarations {
  import opened Seqs
  import opened OrderedDict
  import Formatter

  /** A rule object returned by the CSS parser: one whose `selectorText` and `style.cssText`
      can be read, or one for which reading them raises `AttributeError` (an at-rule, say). */
  datatype Rule = Shaped(selectorText: string, cssText: string) | Unshaped

  /** What the CSS parser makes of one fragment: it raises `SyntaxErr`, or it returns a
      (possibly empty) sequence of rules. */
  datatype ParseOutcome = SyntaxErr | Parsed(rules: seq<Rule>)

  /** `parser.parseString`, which this model leaves uninterpreted. */
  type Parser = string -> ParseOutcome

  /** Selector text to formatted declaration strings, keys in first-insertion order. */
  type Record = Dict<string, seq<string>>

  /** The result of `process_css_declarations`. */
  datatype Processed = Processed(record: Record, failed: seq<string>)

  /** The loop body for one rule of a parsed fragment. */
  function AddRule(rec: Record, rule: Rule): (r: Record)
  {
    match rule
    case Unshaped => rec
    case Shaped(selector, css) => AppendTo(rec, selector, Formatter.Format(css))
  }

  /** The rules of one parsed fragment, in order. */
  function AddRules(rec: Record, rules: seq<Rule>): Record
    decreases |rules|
  {
    if |rules| == 0 then rec else AddRules(AddRule(rec, rules[0]), rules[1..])
  }

  /** The loop body for one fragment: a syntax error sends it to the failed list and leaves
      the record alone; a parsed fragment leaves the failed list alone. */
  function Step(parse: Parser, st: Processed, fragment: string): (r: Processed)
    ensures parse(fragment).SyntaxErr? ==> r.record == st.record && r.failed == st.failed + [fragment]
    ensures parse(fragment).Parsed? ==> r.failed == st.failed
  {
    match parse(fragment)
    case SyntaxErr => st.(failed := st.failed + [fragment])
    case Parsed(rules) => st.(record := AddRules(st.record, rules))
  }

  function ProcessFrom(parse: Parser, st: Processed, fragments: seq<string>): Processed
    decreases |fragments|
  {
    if |fragments| == 0 then st else ProcessFrom(parse, Step(parse, st, fragments[0]), fragments[1..])
  }

  /** `process_css_declarations`. */
  function Process(parse: Parser, fragments: seq<string>): Processed {
    ProcessFrom(parse, Processed([], []), fragments)
  }

  // ---------------------------------------------------------------- reference definitions

  /** The fragments the parser rejects, in input order. */
  function Failed(parse: Parser, fragments: seq<string>): seq<string> {
    Filter((f: string) => parse(f).SyntaxErr?, fragments)
  }

  /** All rules of the fragments the parser accepts, fragment after fragment. */
  function ParsedRules(parse: Parser, fragments: seq<string>): seq<Rule>
    decreases |fragments|
  {
    if |fragments| == 0 then []
    else
      (match parse(fragments[0]) case SyntaxErr => [] case Parsed(rules) => rules)
      + ParsedRules(parse, fragments[1..])
  }

  /** A (selector text, declaration text) pair for every shaped rule, in order. */
  function Entries(rules: seq<Rule>): seq<(string, string)>
    decreases |rules|
  {
    if |rules| == 0 then []
    else (if rules[0].Shaped? then [(rules[0].selectorText, rules[0].cssText)] else []) + Entries(rules[1..])
  }

  /** Appending the formatted declarations of the entries one by one to the record's lists. */
  function Accumulate(rec: Record, entries: seq<(string, string)>): Record
    decreases |entries|
  {
    if |entries| == 0 then rec
    else Accumulate(AppendTo(rec, entries[0].0, Formatter.Format(entries[0].1)), entries[1..])
  }

  /** The selector texts of the entries, in order, with repeats. Written head-first rather
      than through `Map` so that it unfolds in step with `Accumulate` and `DedupFrom`. */
  function SelectorTexts(entries: seq<(string, string)>): seq<string>
    decreases |entries|
  {
    if |entries| == 0 then [] else [entries[0].0] + SelectorTexts(entries[1..])
  }

  /** The formatted declarations of the entries for selector text `k`, in order. */
  function Select(entries: seq<(string, string)>, k: string): seq<string>
    decreases |entries|
  {
    if |entries| == 0 then []
    else (if entries[0].0 == k then [Formatter.Format(entries[0].1)] else []) + Select(entries[1..], k)
  }

  // ---------------------------------------------------------------- the failed list

  lemma {:induction false} ProcessFromFailed(parse: Parser, st: Processed, fragments: seq<string>)
    ensures ProcessFrom(parse, st, fragments).failed == st.failed + Failed(parse, fragments)
    decreases |fragments|
  {
    if |fragments| == 0 {
      assert st.failed + [] == st.failed;
    } else {
      var f := fragments[0];
      var next := Step(parse, st, f);
      ProcessFromFailed(parse, next, fragments[1..]);
      var mine := if parse(f).SyntaxErr? then [f] else [];
      assert Failed(parse, fragments) == mine + Failed(parse, fragments[1..]);
      assert next.failed == st.failed + mine;
    }
  }

  /** The failed list is the rejected fragments, verbatim and in input order; a fragment is
      in it exactly when the parser rejects it. */
  lemma ProcessFailed(parse: Parser, fragments: seq<string>)
    ensures Process(parse, fragments).failed == Failed(parse, fragments)
    ensures forall f :: f in Process(parse, fragments).failed <==> f in fragments && parse(f).SyntaxErr?
  {
    ProcessFromFailed(parse, Processed([], []), fragments);
    assert [] + Failed(parse, fragments) == Failed(parse, fragments);
  }

  // ---------------------------------------------------------------- the record

  lemma {:induction false} AccumulateAppend(rec: Record, xs: seq<(string, string)>, ys: seq<(string, string)>)
    ensures Accumulate(rec, xs + ys) == Accumulate(Accumulate(rec, xs), ys)
    decreases |xs|
  {
    if |xs| == 0 {
      assert xs + ys == ys;
    } else {
      assert (xs + ys)[1..] == xs[1..] + ys;
      AccumulateAppend(AppendTo(rec, xs[0].0, Formatter.Format(xs[0].1)), xs[1..], ys);
    }
  }

  lemma {:induction false} EntriesAppend(xs: seq<Rule>, ys: seq<Rule>)
    ensures Entries(xs + ys) == Entries(xs) + Entries(ys)
    decreases |xs|
  {
    if |xs| == 0 {
      assert xs + ys == ys;
    } else {
      var x := xs[0];
      var mine := if x.Shaped? then [(x.selectorText, x.cssText)] else [];
      assert (xs + ys)[0] == x;
      assert (xs + ys)[1..] == xs[1..] + ys;
      assert Entries(xs) == mine + Entries(xs[1..]);
      assert Entries(xs + ys) == mine + Entries(xs[1..] + ys);
      EntriesAppend(xs[1..], ys);
      Assoc(mine, Entries(xs[1..]), Entries(ys));
    }
  }

  /** Adding the rules of one fragment is appending its entries. */
  lemma {:induction false} AddRulesIsAccumulate(rec: Record, rules: seq<Rule>)
    ensures AddRules(rec, rules) == Accumulate(rec, Entries(rules))
    decreases |rules|
  {
    if |rules| > 0 {
      AddRulesIsAccumulate(AddRule(rec, rules[0]), rules[1..]);
      var first := Entries([rules[0]]);
      assert Entries(rules) == first + Entries(rules[1..]) by {
        EntriesAppend([rules[0]], rules[1..]);
        HeadTail(rules);
      }
      AccumulateAppend(rec, first, Entries(rules[1..]));
      match rules[0]
      case Unshaped =>
        assert first == [];
      case Shaped(selector, css) =>
        assert first == [(selector, css)];
        assert Accumulate(rec, first) == Accumulate(AppendTo(rec, selector, Formatter.Format(css)), []);
    }
  }

  lemma {:induction false} ProcessFromRecord(parse: Parser, st: Processed, fragments: seq<string>)
    ensures ProcessFrom(parse, st, fragments).record == Accumulate(st.record, Entries(ParsedRules(parse, fragments)))
    decreases |fragments|
  {
    if |fragments| > 0 {
      var f := fragments[0];
      var next := Step(parse, st, f);
      ProcessFromRecord(parse, next, fragments[1..]);
      var mine := match parse(f) case SyntaxErr => [] case Parsed(rules) => rules;
      assert ParsedRules(parse, fragments) == mine + ParsedRules(parse, fragments[1..]);
      EntriesAppend(mine, ParsedRules(parse, fragments[1..]));
      AccumulateAppend(st.record, Entries(mine), Entries(ParsedRules(parse, fragments[1..])));
      AddRulesIsAccumulate(st.record, mine);
    }
  }

  lemma {:induction false} AccumulateKeys(rec: Record, entries: seq<(string, string)>)
    ensures Keys(Accumulate(rec, entries)) == DedupFrom(Keys(rec), SelectorTexts(entries))
    decreases |entries|
  {
    if |entries| > 0 {
      AccumulateKeys(AppendTo(rec, entries[0].0, Formatter.Format(entries[0].1)), entries[1..]);
    }
  }

  lemma {:induction false} AccumulateLists(rec: Record, entries: seq<(string, string)>, k: string)
    ensures ListAt(Accumulate(rec, entries), k) == ListAt(rec, k) + Select(entries, k)
    decreases |entries|
  {
    if |entries| == 0 {
      assert ListAt(rec, k) + [] == ListAt(rec, k);
    } else {
      var next := AppendTo(rec, entries[0].0, Formatter.Format(entries[0].1));
      AccumulateLists(next, entries[1..], k);
      var mine := if entries[0].0 == k then [Formatter.Format(entries[0].1)] else [];
      assert ListAt(next, k) == ListAt(rec, k) + mine;
      assert Select(entries, k) == mine + Select(entries[1..], k);
      Assoc(ListAt(rec, k), mine, Select(entries[1..], k));
    }
  }

  lemma {:induction false} AccumulateTotal(rec: Record, entries: seq<(string, string)>)
    requires DistinctKeys(rec)
    ensures DistinctKeys(Accumulate(rec, entries))
    ensures TotalItems(Accumulate(rec, entries)) == TotalItems(rec) + |entries|
    decreases |entries|
  {
    if |entries| > 0 {
      AppendToTotal(rec, entries[0].0, Formatter.Format(entries[0].1));
      AccumulateTotal(AppendTo(rec, entries[0].0, Formatter.Format(entries[0].1)), entries[1..]);
    }
  }

  predicate IsShaped(rule: Rule) {
    rule.Shaped?
  }

  lemma {:induction false} EntriesCount(rules: seq<Rule>)
    ensures |Entries(rules)| == |Filter(IsShaped, rules)|
    decreases |rules|
  {
    if |rules| > 0 {
      EntriesCount(rules[1..]);
    }
  }

  lemma {:induction false} EntriesShaped(rules: seq<Rule>)
    ensures Entries(Filter(IsShaped, rules)) == Entries(rules)
    decreases |rules|
  {
    if |rules| > 0 {
      EntriesShaped(rules[1..]);
      var kept := if IsShaped(rules[0]) then [rules[0]] else [];
      assert Filter(IsShaped, rules) == kept + Filter(IsShaped, rules[1..]);
      EntriesAppend(kept, Filter(IsShaped, rules[1..]));
      assert Entries(kept) == (if rules[0].Shaped? then [(rules[0].selectorText, rules[0].cssText)] else []);
    }
  }

  /** Rules without the selector/declaration shape leave the record as it is: a fragment's
      rules add exactly what its shaped rules alone add. */
  lemma UnshapedIgnored(rec: Record, rules: seq<Rule>)
    ensures AddRules(rec, rules) == AddRules(rec, Filter(IsShaped, rules))
  {
    AddRulesIsAccumulate(rec, rules);
    AddRulesIsAccumulate(rec, Filter(IsShaped, rules));
    EntriesShaped(rules);
  }

  /** The record holds one key per distinct selector text of the shaped rules of accepted
      fragments, in first-seen order; under each key, the formatted declarations of exactly
      the rules with that selector text, in encounter order; and as many declarations in
      all as there are such shaped rules. */
  lemma ProcessRecord(parse: Parser, fragments: seq<string>)
    ensures var rec := Process(parse, fragments).record;
            var entries := Entries(ParsedRules(parse, fragments));
            && DistinctKeys(rec)
            && Keys(rec) == DedupFrom([], SelectorTexts(entries))
            && (forall k :: ListAt(rec, k) == Select(entries, k))
            && TotalItems(rec) == |Filter(IsShaped, ParsedRules(parse, fragments))|
  {
    var entries := Entries(ParsedRules(parse, fragments));
    ProcessFromRecord(parse, Processed([], []), fragments);
    AccumulateKeys([], entries);
    forall k ensures ListAt(Process(parse, fragments).record, k) == Select(entries, k) {
      AccumulateLists([], entries, k);
    }
    AccumulateTotal([], entries);
    EntriesCount(ParsedRules(parse, fragments));
  }

  lemma StepOneRule(parse: Parser, st: Processed, f: string, selector: string, css: string)
    requires parse(f) == Parsed([Shaped(selector, css)])
    ensures Step(parse, st, f) == Processed(AppendTo(st.record, selector, Formatter.Format(css)), st.failed)
  {
    var rule := Shaped(selector, css);
    assert [rule][1..] == [];
    var added := AddRule(st.record, rule);
    assert AddRules(st.record, [rule]) == AddRules(added, []);
  }

  lemma ProcessTwo(parse: Parser, f1: string, f2: string)
    ensures Process(parse, [f1, f2]) == Step(parse, Step(parse, Processed([], []), f1), f2)
  {
    var st1 := Step(parse, Processed([], []), f1);
    assert [f1, f2][1..] == [f2];
    assert [f2][1..] == [];
    assert Process(parse, [f1, f2]) == ProcessFrom(parse, st1, [f2]);
  }

  /** Two fragments with the same selector text merge into one entry whose declarations
      keep the fragments' order. */
  lemma SameSelectorMerges(parse: Parser, f1: string, f2: string, selector: string, css1: string, css2: string)
    requires parse(f1) == Parsed([Shaped(selector, css1)])
    requires parse(f2) == Parsed([Shaped(selector, css2)])
    ensures Process(parse, [f1, f2])
         == Processed([(selector, [Formatter.Format(css1), Formatter.Format(css2)])], [])
  {
    var format1, format2 := Formatter.Format(css1), Formatter.Format(css2);
    var st1 := Step(parse, Processed([], []), f1);
    StepOneRule(parse, Processed([], []), f1, selector, css1);
    StepOneRule(parse, st1, f2, selector, css2);
    AppendTwice(selector, format1, format2);
    ProcessTwo(parse, f1, f2);
  }
}

=== FILE: formatter.dfy ===
/**
 The declaration formatter: multi-line declaration text becomes one line, as an inline
 `style` value must be. The text is stripped as a whole, cut into lines, every line loses
 its `;` characters and gets exactly one `;` at its end, and the lines are joined by single
 spaces. Individual lines are not stripped.
 */
module Formatter {
  import opened Text
  import opened Seqs

  /** One line with its `;` removed and a single `;` appended. */
  function FormatItem(line: string): (r: string)
    ensures |r| > 0 && r[|r| - 1] == ';'
    ensures ';' !in r[..|r| - 1]
  {
    var body := RemoveChar(line, ';');
    assert (body + ";")[..|body|] == body;
    body + ";"
  }

  /** The formatted item of every line, in order. Written head-first rather than through
      `Map` so that `JoinedItemsSplit` can peel one line at a time, as `Join` does. */
  function FormatItems(lines: seq<string>): (r: seq<string>)
    ensures |r| == |lines|
    ensures forall i :: 0 <= i < |lines| ==> r[i] == FormatItem(lines[i])
    decreases |lines|
  {
    if |lines| == 0 then [] else [FormatItem(lines[0])] + FormatItems(lines[1..])
  }

  /** The lines of the stripped declaration text. */
  function Lines(cssText: string): seq<string> {
    SplitLines(Strip(cssText))
  }

  /** `format_css_content_for_inline`. */
  function Format(cssText: string): string {
    Join(FormatItems(Lines(cssText)), " ")
  }

  /** Blank text formats to the empty string, and any other text to a string ending in `;`. */
  lemma FormatEnd(cssText: string)
    ensures Format(cssText) == "" <==> AllWhitespace(cssText)
    ensures Format(cssText) == "" || Format(cssText)[|Format(cssText)| - 1] == ';'
  {
    var lines := Lines(cssText);
    var items := FormatItems(lines);
    StripBlank(cssText);
    if |items| > 0 {
      assert items[|items| - 1] == FormatItem(lines[|lines| - 1]);
      JoinLast(items, " ");
    } else {
      assert AllWhitespace(cssText);
    }
  }

  /** `pieces` are what cutting the formatted `lines` at every `;` gives: the first line's
      text, then each later line's text behind the joining space, then nothing after the
      final `;`. */
  predicate SplitsAsLines(pieces: seq<string>, lines: seq<string>) {
    && |pieces| == |lines| + 1
    && pieces[|lines|] == ""
    && (|lines| > 0 ==> pieces[0] == RemoveChar(lines[0], ';'))
    && (forall k :: 0 < k < |lines| ==> pieces[k] == " " + RemoveChar(lines[k], ';'))
  }

  /** The formatted text of two or more lines: the first line's text, its `;`, a space, the rest. */
  lemma JoinItemsCons(lines: seq<string>)
    requires |lines| > 1
    ensures Join(FormatItems(lines), " ")
         == RemoveChar(lines[0], ';') + [';'] + (" " + Join(FormatItems(lines[1..]), " "))
  {
    var body := RemoveChar(lines[0], ';');
    var rest := Join(FormatItems(lines[1..]), " ");
    FormatItemsCons(lines);
    JoinCons(FormatItems(lines), " ");
    Assoc(body + [';'], " ", rest);
  }

  lemma FormatItemsCons(lines: seq<string>)
    requires |lines| > 0
    ensures FormatItems(lines)[1..] == FormatItems(lines[1..])
    ensures FormatItems(lines)[0] == RemoveChar(lines[0], ';') + [';']
  {
  }

  lemma {:induction false} JoinedItemsSplit(lines: seq<string>)
    ensures SplitsAsLines(Split(Join(FormatItems(lines), " "), ';'), lines)
    decreases |lines|
  {
    if |lines| == 1 {
      var body := RemoveChar(lines[0], ';');
      assert Join(FormatItems(lines), " ") == body + [';'] + "";
      SplitAfterPiece(body, "", ';');
    } else if |lines| > 1 {
      var body := RemoveChar(lines[0], ';');
      var rest := Join(FormatItems(lines[1..]), " ");
      JoinItemsCons(lines);
      SplitAfterPiece(body, " " + rest, ';');
      JoinedItemsSplit(lines[1..]);
      SplitCons(' ', rest, ';');
      assert " " + rest == [' '] + rest;
    }
  }

  /** Cutting the formatted text at every `;` gives back each line's own text with only its
      `;` removed, the later ones behind one space, so every item holds exactly one `;`,
      at its end, and there are as many `;` as lines. */
  lemma FormatShape(cssText: string)
    ensures SplitsAsLines(Split(Format(cssText), ';'), Lines(cssText))
    ensures Count(';', Format(cssText)) == |Lines(cssText)|
  {
    JoinedItemsSplit(Lines(cssText));
  }

  /** A single line with no surrounding whitespace only loses its `;` and gains one at its end. */
  lemma FormatSingleLine(line: string)
    requires |line| > 0 && NoEdgeWhitespace(line)
    requires forall k :: 0 <= k < |line| ==> !IsLineBreak(line[k])
    ensures Format(line) == RemoveChar(line, ';') + ";"
  {
    StripNoEdge(line);
    SplitLinesNoBreak(line);
    assert FormatItems([line]) == [FormatItem(line)];
  }

  /** A single declaration line written without `;` only gains one at its end. */
  lemma FormatPlainLine(line: string)
    requires |line| > 0 && NoEdgeWhitespace(line)
    requires forall k :: 0 <= k < |line| ==> !IsLineBreak(line[k]) && line[k] != ';'
    ensures Format(line) == line + ";"
  {
    FormatSingleLine(line);
    RemoveCharAbsent(line, ';');
  }

  /** The declaration block `color:red` formats to `color:red;`. */
  lemma FormatExample()
    ensures Format("color:red") == "color:red;"
  {
    FormatPlainLine("color:red");
  }
}

=== FILE: ordered_dict.dfy ===
/**
 Python's insertion-ordered `dict`, as a sequence of key/value pairs. The three
 writes the inliner performs are `d[k] = v` (`Put`: overwrite in place or append),
 `d.setdefault(k, v)` (`SetDefault`: keep an existing value) and
 `d.setdefault(k, []).append(v)` (`AppendTo`).
 */
module OrderedDict {
  import opened Wrappers

  type Dict<K, V> = seq<(K, V)>

  /** The keys, in insertion order. */
  function Keys<K, V>(d: Dict<K, V>): (ks: seq<K>)
    ensures |ks| == |d|
    ensures forall i :: 0 <= i < |d| ==> ks[i] == d[i].0
  {
    seq(|d|, i requires 0 <= i < |d| => d[i].0)
  }

  /** No key occurs twice, which holds of every dict the operations below build. */
  predicate DistinctKeys<K(==), V>(d: Dict<K, V>) {
    forall i, j :: 0 <= i < j < |d| ==> d[i].0 != d[j].0
  }

  /** Two dicts with the same keys at the same positions. */
  predicate SameKeys<K(==), V>(d: Dict<K, V>, e: Dict<K, V>) {
    |d| == |e| && forall i :: 0 <= i < |d| ==> d[i].0 == e[i].0
  }

  /** Position of the first entry for `k`. */
  function IndexOf<K(==), V>(d: Dict<K, V>, k: K): (r: Option<nat>)
    ensures r.Some? ==> r.value < |d| && d[r.value].0 == k
    ensures r.Some? ==> forall j :: 0 <= j < r.value ==> d[j].0 != k
    ensures r.None? <==> k !in Keys(d)
    decreases |d|
  {
    if |d| == 0 then None
    else if d[0].0 == k then Some(0)
    else match IndexOf(d[1..], k)
      case Some(j) => Some(j + 1)
      case None => None
  }

  /** Dicts with the same keys in the same places find a key at the same place. */
  lemma SameKeysIndexOf<K, V>(d: Dict<K, V>, e: Dict<K, V>, k: K)
    requires SameKeys(d, e)
    ensures IndexOf(d, k) == IndexOf(e, k)
  {
    assert Keys(d) == Keys(e);
  }

  /** Adding an entry for another key does not move where `k` is found. */
  lemma {:induction false} IndexOfSnoc<K, V>(d: Dict<K, V>, x: (K, V), k: K)
    requires x.0 != k
    ensures IndexOf(d + [x], k) == IndexOf(d, k)
    decreases |d|
  {
    if |d| > 0 && d[0].0 != k {
      assert (d + [x])[1..] == d[1..] + [x];
      IndexOfSnoc(d[1..], x, k);
    }
  }

  /** `d.get(k)`. */
  function Get<K(==), V>(d: Dict<K, V>, k: K): (r: Option<V>)
    ensures r.None? <==> k !in Keys(d)
    ensures DistinctKeys(d) ==> forall i :: 0 <= i < |d| && d[i].0 == k ==> r == Some(d[i].1)
  {
    match IndexOf(d, k)
    case Some(i) => Some(d[i].1)
    case None => None
  }

  /** `d[k] = v`: an existing key keeps its position and takes the new value; a new key goes last. */
  function Put<K(==,!new), V>(d: Dict<K, V>, k: K, v: V): (r: Dict<K, V>)
    ensures Get(r, k) == Some(v)
    ensures forall k' :: k' != k ==> Get(r, k') == Get(d, k')
    ensures Keys(r) == if k in Keys(d) then Keys(d) else Keys(d) + [k]
    ensures DistinctKeys(d) ==> DistinctKeys(r)
  {
    match IndexOf(d, k)
    case Some(i) =>
      var r := d[i := (k, v)];
      assert SameKeys(d, r);
      assert forall k' :: IndexOf(r, k') == IndexOf(d, k') by {
        forall k' ensures IndexOf(r, k') == IndexOf(d, k') { SameKeysIndexOf(r, d, k'); }
      }
      assert Keys(r) == Keys(d);
      r
    case None =>
      var r := d + [(k, v)];
      assert Keys(r) == Keys(d) + [k];
      assert forall k' :: k' != k ==> IndexOf(r, k') == IndexOf(d, k') by {
        forall k' | k' != k ensures IndexOf(r, k') == IndexOf(d, k') {
          IndexOfSnoc(d, (k, v), k');
        }
      }
      r
  }

  /** `d.setdefault(k, v)`: the first value stored for a key is the one that stays. */
  function SetDefault<K(==,!new), V>(d: Dict<K, V>, k: K, v: V): (r: Dict<K, V>)
    ensures Get(r, k) == if k in Keys(d) then Get(d, k) else Some(v)
    ensures forall k' :: k' != k ==> Get(r, k') == Get(d, k')
    ensures Keys(r) == if k in Keys(d) then Keys(d) else Keys(d) + [k]
    ensures DistinctKeys(d) ==> DistinctKeys(r)
  {
    if k in Keys(d) then d else Put(d, k, v)
  }

  /** The list stored under `k`, or the empty list when `k` is absent. */
  function ListAt<K(==), V>(d: Dict<K, seq<V>>, k: K): seq<V> {
    Get(d, k).GetOr([])
  }

  /** `d.setdefault(k, []).append(v)`. */
  function AppendTo<K(==,!new), V>(d: Dict<K, seq<V>>, k: K, v: V): (r: Dict<K, seq<V>>)
    ensures Get(r, k) == Some(ListAt(d, k) + [v])
    ensures forall k' :: k' != k ==> Get(r, k') == Get(d, k')
    ensures Keys(r) == if k in Keys(d) then Keys(d) else Keys(d) + [k]
    ensures DistinctKeys(d) ==> DistinctKeys(r)
  {
    Put(d, k, ListAt(d, k) + [v])
  }

  /** Total number of list items over all entries. */
  function TotalItems<K, V>(d: Dict<K, seq<V>>): nat
    decreases |d|
  {
    if |d| == 0 then 0 else |d[0].1| + TotalItems(d[1..])
  }

  /** Replacing one entry's list changes the total by the change in that list's length. */
  lemma {:induction false} TotalItemsUpdate<K, V>(d: Dict<K, seq<V>>, i: nat, e: (K, seq<V>))
    requires i < |d|
    ensures TotalItems(d[i := e]) == TotalItems(d) - |d[i].1| + |e.1|
    decreases |d|
  {
    if i > 0 {
      assert d[i := e][1..] == d[1..][i - 1 := e];
      TotalItemsUpdate(d[1..], i - 1, e);
    }
  }

  /** Adding an entry at the end adds its list's length to the total. */
  lemma {:induction false} TotalItemsSnoc<K, V>(d: Dict<K, seq<V>>, e: (K, seq<V>))
    ensures TotalItems(d + [e]) == TotalItems(d) + |e.1|
    decreases |d|
  {
    if |d| > 0 {
      assert (d + [e])[1..] == d[1..] + [e];
      TotalItemsSnoc(d[1..], e);
    }
  }

  /** Every `AppendTo` adds exactly one item to the dict. */
  lemma AppendToTotal<K(!new), V>(d: Dict<K, seq<V>>, k: K, v: V)
    requires DistinctKeys(d)
    ensures TotalItems(AppendTo(d, k, v)) == TotalItems(d) + 1
  {
    match IndexOf(d, k)
    case Some(i) =>
      TotalItemsUpdate(d, i, (k, ListAt(d, k) + [v]));
    case None =>
      TotalItemsSnoc(d, (k, ListAt(d, k) + [v]));
  }

  /** Appending to an empty dict creates a one-item list. */
  lemma AppendToEmpty<K(!new), V>(k: K, v: V)
    ensures AppendTo([], k, v) == [(k, [v])]
  {
    var empty: Dict<K, seq<V>> := [];
    assert ListAt(empty, k) + [v] == [v];
    assert IndexOf(empty, k) == None;
    assert Put(empty, k, [v]) == [(k, [v])];
    assert AppendTo(empty, k, v) == Put(empty, k, [v]);
  }

  /** Appending under the only key of a one-entry dict extends its list. */
  lemma AppendToSingle<K(!new), V>(k: K, xs: seq<V>, v: V)
    ensures AppendTo([(k, xs)], k, v) == [(k, xs + [v])]
  {
    var d := [(k, xs)];
    assert ListAt(d, k) == xs;
    assert IndexOf(d, k) == Some(0);
    assert Put(d, k, xs + [v]) == d[0 := (k, xs + [v])];
  }

  /** Two appends under one key to an empty dict give one entry with both values, in order. */
  lemma AppendTwice<K(!new), V>(k: K, v1: V, v2: V)
    ensures AppendTo(AppendTo([], k, v1), k, v2) == [(k, [v1, v2])]
  {
    AppendToEmpty(k, v1);
    AppendToSingle(k, [v1], v2);
    assert [v1] + [v2] == [v1, v2];
  }

  /** `seen` followed by the items of `xs` not seen before, in first-occurrence order:
      the key order of a dict that starts with keys `seen` and is then written at `xs`. */
  function DedupFrom<K(==)>(seen: seq<K>, xs: seq<K>): seq<K>
    decreases |xs|
  {
    if |xs| == 0 then seen
    else DedupFrom(if xs[0] in seen then seen else seen + [xs[0]], xs[1..])
  }
}

=== FILE: pipeline.dfy ===
/**
 The whole inlining pass: the style blocks are cut into fragments, the fragments are
 parsed into the record, the record is grouped by selector, and every group's joined
 declarations are merged into the elements its plain selectors match. The fragments the
 parser rejects are handed back for reinsertion.
 */
module Pipeline {
  import opened Wrappers
  import opened OrderedDict
  import Splitter
  import Declarations
  import Selectors
  import StyleMerge

  /** The state the main loop carries: the document and the (never read) pseudo map. */
  datatype LoopState = LoopState(doc: StyleMerge.Doc, pseudo: Dict<Selectors.Group, string>)

  /** One iteration over a group and its joined declarations: record them under the
      group's pseudo selectors unless already there, then merge them into the elements its
      plain selectors match, or skip when it has none. */
  function LoopStep(matches: StyleMerge.Matcher, st: LoopState, entry: (Selectors.Group, string)): (r: LoopState)
    ensures |r.doc| == |st.doc|
  {
    var pseudo := SetDefault(st.pseudo, Selectors.Pseudo(entry.0), entry.1);
    var plain := Selectors.Plain(entry.0);
    if |plain| == 0 then LoopState(st.doc, pseudo)
    else LoopState(StyleMerge.ApplySelectors(st.doc, matches, plain, entry.1), pseudo)
  }

  /** The loop over the grouped declarations in `main` (css_inliner.py:196-211). */
  function MainLoop(matches: StyleMerge.Matcher, st: LoopState, grouped: Selectors.Grouped): (r: LoopState)
    ensures |r.doc| == |st.doc|
    decreases |grouped|
  {
    if |grouped| == 0 then st else MainLoop(matches, LoopStep(matches, st, grouped[0]), grouped[1..])
  }

  /** The updated document and the fragments left for reinsertion. */
  datatype Outcome = Outcome(doc: StyleMerge.Doc, failed: seq<string>)

  /** The grouped declarations of the style blocks. */
  function GroupedOf(parse: Declarations.Parser, blocks: seq<string>): Selectors.Grouped {
    Selectors.InlineDeclarations(Declarations.Process(parse, Splitter.Divide(blocks)).record)
  }

  /** The inlining loop of `main` (css_inliner.py:184-211): the style blocks are split,
      parsed and grouped, and every group is merged into the document. */
  function Inline(parse: Declarations.Parser, matches: StyleMerge.Matcher, blocks: seq<string>, doc: StyleMerge.Doc): (r: Outcome)
    ensures |r.doc| == |doc|
  {
    var st := MainLoop(matches, LoopState(doc, []), GroupedOf(parse, blocks));
    Outcome(st.doc, Declarations.Process(parse, Splitter.Divide(blocks)).failed)
  }

  // ---------------------------------------------------------------- reference definitions

  /** Every group merged into the elements its plain selectors match, with no skipping and
      no pseudo map. */
  function ApplyAll(doc: StyleMerge.Doc, matches: StyleMerge.Matcher, grouped: Selectors.Grouped): StyleMerge.Doc
    decreases |grouped|
  {
    if |grouped| == 0 then doc
    else ApplyAll(StyleMerge.ApplySelectors(doc, matches, Selectors.Plain(grouped[0].0), grouped[0].1), matches, grouped[1..])
  }

  /** The style of one element after every group, group by group. */
  function ElementAfter(previous: StyleMerge.StyleAttr, matches: StyleMerge.Matcher, grouped: Selectors.Grouped, i: nat): StyleMerge.StyleAttr
    decreases |grouped|
  {
    if |grouped| == 0 then previous
    else
      var plain := Selectors.Plain(grouped[0].0);
      ElementAfter(StyleMerge.MergeTimes(previous, grouped[0].1, StyleMerge.Hits(matches, plain, i)), matches, grouped[1..], i)
  }

  /** The joined declarations of the first group whose pseudo selectors are `pseudo`. */
  function FirstFor(grouped: Selectors.Grouped, pseudo: Selectors.Group): Option<string>
    decreases |grouped|
  {
    if |grouped| == 0 then None
    else if Selectors.Pseudo(grouped[0].0) == pseudo then Some(grouped[0].1)
    else FirstFor(grouped[1..], pseudo)
  }

  // ---------------------------------------------------------------- the document

  /** Skipping a group without plain selectors is the same as applying none; the pseudo map
      plays no part in the document. */
  lemma {:induction false} MainLoopDoc(matches: StyleMerge.Matcher, st: LoopState, grouped: Selectors.Grouped)
    ensures MainLoop(matches, st, grouped).doc == ApplyAll(st.doc, matches, grouped)
    decreases |grouped|
  {
    if |grouped| > 0 {
      var next := LoopStep(matches, st, grouped[0]);
      assert next.doc == StyleMerge.ApplySelectors(st.doc, matches, Selectors.Plain(grouped[0].0), grouped[0].1);
      MainLoopDoc(matches, next, grouped[1..]);
    }
  }

  lemma {:induction false} ApplyAllAt(doc: StyleMerge.Doc, matches: StyleMerge.Matcher, grouped: Selectors.Grouped, i: nat)
    requires i < |doc|
    ensures |ApplyAll(doc, matches, grouped)| == |doc|
    ensures ApplyAll(doc, matches, grouped)[i] == ElementAfter(doc[i], matches, grouped, i)
    decreases |grouped|
  {
    if |grouped| > 0 {
      var next := StyleMerge.ApplySelectors(doc, matches, Selectors.Plain(grouped[0].0), grouped[0].1);
      StyleMerge.ApplySelectorsAt(doc, matches, Selectors.Plain(grouped[0].0), grouped[0].1, i);
      ApplyAllAt(next, matches, grouped[1..], i);
    }
  }

  /** Each element ends with the declarations of every group merged in once per plain
      selector of that group matching it, in group order. */
  lemma InlineDoc(parse: Declarations.Parser, matches: StyleMerge.Matcher, blocks: seq<string>, doc: StyleMerge.Doc, i: nat)
    requires i < |doc|
    ensures Inline(parse, matches, blocks, doc).doc[i] == ElementAfter(doc[i], matches, GroupedOf(parse, blocks), i)
  {
    var grouped := GroupedOf(parse, blocks);
    MainLoopDoc(matches, LoopState(doc, []), grouped);
    ApplyAllAt(doc, matches, grouped, i);
  }

  /** No plain selector of any group matches the element. */
  predicate Unmatched(matches: StyleMerge.Matcher, grouped: Selectors.Grouped, i: nat) {
    forall j, s :: 0 <= j < |grouped| && s in Selectors.Plain(grouped[j].0) ==> i !in matches(s)
  }

  /** An element that no plain selector of any group matches keeps its style, whatever the
      pseudo selectors of the groups match. */
  lemma {:induction false} ElementAfterUnmatched(previous: StyleMerge.StyleAttr, matches: StyleMerge.Matcher, grouped: Selectors.Grouped, i: nat)
    requires Unmatched(matches, grouped, i)
    ensures ElementAfter(previous, matches, grouped, i) == previous
    decreases |grouped|
  {
    if |grouped| > 0 {
      var plain := Selectors.Plain(grouped[0].0);
      StyleMerge.HitsZero(matches, plain, i);
      var rest := grouped[1..];
      forall j, s | 0 <= j < |rest| && s in Selectors.Plain(rest[j].0) ensures i !in matches(s) {
        assert rest[j] == grouped[j + 1];
      }
      ElementAfterUnmatched(previous, matches, rest, i);
    }
  }

  /** An element that no plain selector of the style blocks matches keeps its style through
      the whole run. */
  lemma InlineUnmatched(parse: Declarations.Parser, matches: StyleMerge.Matcher, blocks: seq<string>, doc: StyleMerge.Doc, i: nat)
    requires i < |doc|
    requires Unmatched(matches, GroupedOf(parse, blocks), i)
    ensures Inline(parse, matches, blocks, doc).doc[i] == doc[i]
  {
    InlineDoc(parse, matches, blocks, doc, i);
    ElementAfterUnmatched(doc[i], matches, GroupedOf(parse, blocks), i);
  }

  // ---------------------------------------------------------------- failed fragments and the pseudo map

  /** The fragments handed back are the parser-rejected fragments of the blocks, verbatim
      and in order. */
  lemma InlineFailed(parse: Declarations.Parser, matches: StyleMerge.Matcher, blocks: seq<string>, doc: StyleMerge.Doc)
    ensures Inline(parse, matches, blocks, doc).failed == Declarations.Failed(parse, Splitter.Divide(blocks))
    ensures forall f :: f in Inline(parse, matches, blocks, doc).failed <==> f in Splitter.Divide(blocks) && parse(f).SyntaxErr?
  {
    Declarations.ProcessFailed(parse, Splitter.Divide(blocks));
  }

  /** The pseudo map keeps, for each pseudo-selector tuple, the declarations of the first
      group that has it, including the empty tuple of groups with no pseudo selector. */
  lemma {:induction false} MainLoopPseudo(matches: StyleMerge.Matcher, st: LoopState, grouped: Selectors.Grouped, pseudo: Selectors.Group)
    ensures Get(MainLoop(matches, st, grouped).pseudo, pseudo)
         == if pseudo in Keys(st.pseudo) then Get(st.pseudo, pseudo) else FirstFor(grouped, pseudo)
    decreases |grouped|
  {
    if |grouped| > 0 {
      MainLoopPseudo(matches, LoopStep(matches, st, grouped[0]), grouped[1..], pseudo);
    }
  }
}

=== FILE: selectors.dfy ===
/**
 Selector grouping and classification: every selector text of the record is cut at its
 commas into a group of stripped selectors, the group becomes a key of a new ordered dict
 whose value is the record's declarations joined by single spaces, and every group is then
 split into its pseudo selectors (those holding a `:`) and its plain ones.
 */
module Selectors {
  import opened Wrappers
  import opened Text
  import opened Seqs
  import opened OrderedDict
  import Declarations

  /** The stripped comma-separated parts of one selector text. */
  type Group = seq<string>

  /** The result of `inline_css_declarations`: selector group to joined declarations. */
  type Grouped = Dict<Group, string>

  /** `map(str.strip, pieces)`. */
  function StripAll(pieces: seq<string>): seq<string> {
    Map(Strip, pieces)
  }

  /** `tuple(map(str.strip, selector.split(",")))`: one part per comma plus one. */
  function SplitSelectors(selector: string): (r: Group)
    ensures |r| == Count(',', selector) + 1
  {
    StripAll(Split(selector, ','))
  }

  /** No part holds a comma or edge whitespace. */
  lemma SplitSelectorsParts(selector: string)
    ensures forall i :: 0 <= i < |SplitSelectors(selector)| ==>
      ',' !in SplitSelectors(selector)[i] && NoEdgeWhitespace(SplitSelectors(selector)[i])
  {
    var pieces := Split(selector, ',');
    var r := SplitSelectors(selector);
    assert r == StripAll(pieces);
    forall i | 0 <= i < |r| ensures ',' !in r[i] && NoEdgeWhitespace(r[i]) {
      assert r[i] == Strip(pieces[i]);
      StripKeepsOut(pieces[i], ',');
      StripEdges(pieces[i]);
    }
  }

  /** Stripping parts that have no edge whitespace leaves them alone. */
  lemma StripAllNoEdge(parts: seq<string>)
    requires forall i :: 0 <= i < |parts| ==> NoEdgeWhitespace(parts[i])
    ensures StripAll(parts) == parts
  {
    forall i | 0 <= i < |parts| ensures StripAll(parts)[i] == parts[i] {
      StripNoEdge(parts[i]);
    }
  }

  /** A selector text written as comma-free parts joined by commas splits back into those
      parts, each stripped. */
  lemma SplitSelectorsOfJoin(parts: seq<string>)
    requires |parts| > 0
    requires forall i :: 0 <= i < |parts| ==> ',' !in parts[i]
    ensures SplitSelectors(Join(parts, ",")) == StripAll(parts)
  {
    JoinThenSplit(parts, ',');
  }

  /** Joining a group by commas and splitting it again gives the group back. */
  lemma SplitSelectorsRoundTrip(group: Group)
    requires |group| > 0
    requires forall i :: 0 <= i < |group| ==> ',' !in group[i] && NoEdgeWhitespace(group[i])
    ensures SplitSelectors(Join(group, ",")) == group
  {
    SplitSelectorsOfJoin(group);
    StripAllNoEdge(group);
  }

  // ---------------------------------------------------------------- grouping

  function InlineFrom(acc: Grouped, rec: Declarations.Record): Grouped
    decreases |rec|
  {
    if |rec| == 0 then acc
    else InlineFrom(Put(acc, SplitSelectors(rec[0].0), Join(rec[0].1, " ")), rec[1..])
  }

  /** `inline_css_declarations`. */
  function InlineDeclarations(rec: Declarations.Record): Grouped {
    InlineFrom([], rec)
  }

  /** The group of every selector text of the record, in order, with repeats. Written
      head-first rather than through `Map` so that it unfolds in step with `InlineFrom`. */
  function GroupsOf(rec: Declarations.Record): seq<Group>
    decreases |rec|
  {
    if |rec| == 0 then [] else [SplitSelectors(rec[0].0)] + GroupsOf(rec[1..])
  }

  /** The joined declarations of the last record entry whose selector text splits into `group`. */
  function LastFor(rec: Declarations.Record, group: Group): Option<string>
    decreases |rec|
  {
    if |rec| == 0 then None
    else match LastFor(rec[1..], group)
      case Some(v) => Some(v)
      case None => if SplitSelectors(rec[0].0) == group then Some(Join(rec[0].1, " ")) else None
  }

  lemma {:induction false} InlineFromKeys(acc: Grouped, rec: Declarations.Record)
    ensures Keys(InlineFrom(acc, rec)) == DedupFrom(Keys(acc), GroupsOf(rec))
    ensures DistinctKeys(acc) ==> DistinctKeys(InlineFrom(acc, rec))
    decreases |rec|
  {
    if |rec| > 0 {
      InlineFromKeys(Put(acc, SplitSelectors(rec[0].0), Join(rec[0].1, " ")), rec[1..]);
    }
  }

  lemma {:induction false} InlineFromGet(acc: Grouped, rec: Declarations.Record, group: Group)
    ensures Get(InlineFrom(acc, rec), group) == if LastFor(rec, group).Some? then LastFor(rec, group) else Get(acc, group)
    decreases |rec|
  {
    if |rec| > 0 {
      InlineFromGet(Put(acc, SplitSelectors(rec[0].0), Join(rec[0].1, " ")), rec[1..], group);
    }
  }

  /** The keys of the result are the distinct groups in first-seen order, and each group
      holds the declarations of the last selector text that splits into it: selector texts
      that differ only in whitespace around their commas overwrite one another. */
  lemma InlineDeclarationsSpec(rec: Declarations.Record, group: Group)
    ensures Keys(InlineDeclarations(rec)) == DedupFrom([], GroupsOf(rec))
    ensures DistinctKeys(InlineDeclarations(rec))
    ensures Get(InlineDeclarations(rec), group) == LastFor(rec, group)
  {
    InlineFromKeys([], rec);
    InlineFromGet([], rec, group);
  }

  lemma {:induction false} LastForNone(rec: Declarations.Record, group: Group)
    ensures LastFor(rec, group).None? <==> forall i :: 0 <= i < |rec| ==> SplitSelectors(rec[i].0) != group
    decreases |rec|
  {
    if |rec| > 0 {
      LastForNone(rec[1..], group);
      assert forall i :: 1 <= i < |rec| ==> rec[i] == rec[1..][i - 1];
    }
  }

  /** The entry that wins a group is the last one that splits into it. */
  lemma {:induction false} LastForAt(rec: Declarations.Record, j: nat)
    requires j < |rec|
    requires forall i :: j < i < |rec| ==> SplitSelectors(rec[i].0) != SplitSelectors(rec[j].0)
    ensures LastFor(rec, SplitSelectors(rec[j].0)) == Some(Join(rec[j].1, " "))
    decreases |rec|
  {
    var group := SplitSelectors(rec[j].0);
    var rest := rec[1..];
    if j == 0 {
      forall i | 0 <= i < |rest| ensures SplitSelectors(rest[i].0) != group {
        assert rest[i] == rec[i + 1];
      }
      LastForNone(rest, group);
    } else {
      assert rest[j - 1] == rec[j];
      forall i | j - 1 < i < |rest| ensures SplitSelectors(rest[i].0) != group {
        assert rest[i] == rec[i + 1];
      }
      LastForAt(rest, j - 1);
    }
  }

  /** The declarations of an entry reach the result when no later entry has the same group. */
  lemma InlineValue(rec: Declarations.Record, j: nat)
    requires j < |rec|
    requires forall i :: j < i < |rec| ==> SplitSelectors(rec[i].0) != SplitSelectors(rec[j].0)
    ensures Get(InlineDeclarations(rec), SplitSelectors(rec[j].0)) == Some(Join(rec[j].1, " "))
  {
    InlineDeclarationsSpec(rec, SplitSelectors(rec[j].0));
    LastForAt(rec, j);
  }

  // ---------------------------------------------------------------- classification

  /** A pseudo selector: one that holds a `:` anywhere. */
  predicate IsPseudo(selector: string) {
    ':' in selector
  }

  predicate IsPlain(selector: string) {
    ':' !in selector
  }

  /** `tuple(filter(lambda x: ":" in x, selectors))`. */
  function Pseudo(group: Group): Group {
    Filter(IsPseudo, group)
  }

  /** `tuple(filter(lambda x: ":" not in x, selectors))`. */
  function Plain(group: Group): Group {
    Filter(IsPlain, group)
  }

  /** Every selector of a group lands in exactly one of the two filters, as often as it occurs. */
  lemma {:induction false} Partition(group: Group)
    ensures multiset(Pseudo(group)) + multiset(Plain(group)) == multiset(group)
    decreases |group|
  {
    if |group| > 0 {
      Partition(group[1..]);
      HeadTail(group);
      assert Pseudo(group) == (if IsPseudo(group[0]) then [group[0]] else []) + Pseudo(group[1..]);
      assert Plain(group) == (if IsPlain(group[0]) then [group[0]] else []) + Plain(group[1..]);
    }
  }

  /** The plain selectors are exactly the group's selectors without a colon, and the pseudo
      ones exactly those with one. */
  lemma Classify(group: Group)
    ensures forall s :: s in Plain(group) <==> s in group && ':' !in s
    ensures forall s :: s in Pseudo(group) <==> s in group && ':' in s
    ensures |Plain(group)| + |Pseudo(group)| == |group|
  {
    Partition(group);
    assert |multiset(Pseudo(group))| + |multiset(Plain(group))| == |multiset(group)|;
  }
}

=== FILE: seqs.dfy ===
/** Sequence helpers shared by the pipeline stages: Python's `filter` and `itertools.chain`. */
module Seqs {

  /** A non-empty sequence is its head followed by its tail. */
  lemma HeadTail<T>(s: seq<T>)
    requires |s| > 0
    ensures [s[0]] + s[1..] == s
  {
  }

  lemma Assoc<T>(a: seq<T>, b: seq<T>, c: seq<T>)
    ensures a + b + c == a + (b + c)
  {
  }

  /** `map(f, xs)`. */
  function Map<A, B>(f: A -> B, xs: seq<A>): (r: seq<B>)
    ensures |r| == |xs|
    ensures forall i :: 0 <= i < |xs| ==> r[i] == f(xs[i])
  {
    seq(|xs|, i requires 0 <= i < |xs| => f(xs[i]))
  }

  lemma MapAppend<A, B>(f: A -> B, xs: seq<A>, ys: seq<A>)
    ensures Map(f, xs + ys) == Map(f, xs) + Map(f, ys)
  {
  }

  lemma MapCons<A, B>(f: A -> B, xs: seq<A>)
    requires |xs| > 0
    ensures Map(f, xs) == [f(xs[0])] + Map(f, xs[1..])
  {
  }

  /** `filter(p, xs)`: the items satisfying `p`, in their original order. */
  function Filter<T>(p: T -> bool, xs: seq<T>): (r: seq<T>)
    ensures |r| <= |xs|
    ensures forall i :: 0 <= i < |r| ==> p(r[i]) && r[i] in xs
    ensures forall x :: x in xs && p(x) ==> x in r
    decreases |xs|
  {
    if |xs| == 0 then [] else (if p(xs[0]) then [xs[0]] else []) + Filter(p, xs[1..])
  }

  lemma {:induction false} FilterAppend<T>(p: T -> bool, xs: seq<T>, ys: seq<T>)
    ensures Filter(p, xs + ys) == Filter(p, xs) + Filter(p, ys)
    decreases |xs|
  {
    if |xs| == 0 {
      assert xs + ys == ys;
    } else {
      assert (xs + ys)[1..] == xs[1..] + ys;
      FilterAppend(p, xs[1..], ys);
    }
  }

  /** `chain(*xss)`: the inner sequences one after the other. */
  function Flatten<T>(xss: seq<seq<T>>): (r: seq<T>)
    decreases |xss|
  {
    if |xss| == 0 then [] else xss[0] + Flatten(xss[1..])
  }

  lemma {:induction false} FlattenAppend<T>(xss: seq<seq<T>>, yss: seq<seq<T>>)
    ensures Flatten(xss + yss) == Flatten(xss) + Flatten(yss)
    decreases |xss|
  {
    if |xss| == 0 {
      assert xss + yss == yss;
    } else {
      assert (xss + yss)[1..] == xss[1..] + yss;
      FlattenAppend(xss[1..], yss);
    }
  }

  lemma FlattenSingle<T>(xs: seq<T>)
    ensures Flatten([xs]) == xs
  {
    assert Flatten([xs]) == xs + Flatten([]);
  }

  /** A property of every inner item is a property of every flattened item. */
  lemma {:induction false} FlattenAll<T>(p: T -> bool, xss: seq<seq<T>>)
    requires forall i, j :: 0 <= i < |xss| && 0 <= j < |xss[i]| ==> p(xss[i][j])
    ensures forall j :: 0 <= j < |Flatten(xss)| ==> p(Flatten(xss)[j])
    decreases |xss|
  {
    if |xss| > 0 {
      FlattenAll(p, xss[1..]);
      var f := Flatten(xss);
      assert f == xss[0] + Flatten(xss[1..]);
      forall j | 0 <= j < |f| ensures p(f[j]) {
        if j >= |xss[0]| {
          assert f[j] == Flatten(xss[1..])[j - |xss[0]|];
        }
      }
    }
  }
}

=== FILE: splitter.dfy ===
/**
 The block splitter: the text of every style block is cut at each `}`, every piece
 gets its `}` back and is stripped, and the pieces that were only whitespace
 (which now read as a lone `}`) are dropped.
 */
module Splitter {
  import opened Text
  import opened Seqs

  /** A rule fragment: one closing brace, at the end, and no leading whitespace. */
  predicate IsFragment(f: string) {
    && |f| > 0
    && f[|f| - 1] == '}'
    && '}' !in f[..|f| - 1]
    && !IsWhitespace(f[0])
  }

  /** `_add_closing_tag`: the piece with `}` appended, then stripped. Since `}` is not
      whitespace, only the piece's leading whitespace goes. */
  function AddClosingTag(declaration: string): (r: string)
    ensures r == LStrip(declaration) + "}"
  {
    assert !IsWhitespace('}');
    StripBeforeNonWhitespace(declaration, '}');
    Strip(declaration + "}")
  }

  /** A piece cut at `}` closes into a well-formed fragment. */
  lemma ClosedPieceIsFragment(piece: string)
    requires '}' !in piece
    ensures IsFragment(AddClosingTag(piece))
  {
    var l := LStrip(piece);
    LStripSpec(piece);
    assert AddClosingTag(piece)[..|l|] == l;
    assert !IsWhitespace('}');
  }

  /** The filter of `divide_declarations_from_style_tags`: a closed piece is kept unless it strips to a lone `}`. */
  predicate IsKept(x: string) {
    Strip(x) != "}"
  }

  /** A closed piece survives the filter exactly when the piece was not blank. */
  lemma ClosedPieceKept(piece: string)
    ensures IsKept(AddClosingTag(piece)) <==> !AllWhitespace(piece)
  {
    var l := LStrip(piece);
    LStripSpec(piece);
    assert !IsWhitespace('}');
    assert NoEdgeWhitespace(l + "}");
    StripNoEdge(l + "}");
    assert l + "}" == "}" <==> l == [];
  }

  /** `map(_add_closing_tag, pieces)`. */
  function CloseAll(pieces: seq<string>): seq<string> {
    Map(AddClosingTag, pieces)
  }

  /** Closing pieces that have no `}` of their own gives fragments only. */
  lemma CloseAllFragments(pieces: seq<string>)
    requires forall i :: 0 <= i < |pieces| ==> '}' !in pieces[i]
    ensures forall i :: 0 <= i < |pieces| ==> IsFragment(CloseAll(pieces)[i])
  {
    forall i | 0 <= i < |pieces| ensures IsFragment(CloseAll(pieces)[i]) {
      ClosedPieceIsFragment(pieces[i]);
    }
  }

  /** `tuple(map(_add_closing_tag, text.split("}")))` for the text of one block. */
  function ClosedPieces(block: string): seq<string> {
    CloseAll(Split(block, '}'))
  }

  /** The closed pieces of every block, block after block. */
  function AllClosedPieces(blocks: seq<string>): seq<seq<string>> {
    Map(ClosedPieces, blocks)
  }

  /** `divide_declarations_from_style_tags`, over the texts of the style blocks in document order. */
  function Divide(blocks: seq<string>): seq<string> {
    Filter(IsKept, Flatten(AllClosedPieces(blocks)))
  }

  /** Every fragment ends with its only `}` and has no leading whitespace. */
  lemma DivideFragments(blocks: seq<string>)
    ensures forall i :: 0 <= i < |Divide(blocks)| ==> IsFragment(Divide(blocks)[i])
  {
    var all := AllClosedPieces(blocks);
    forall i, j | 0 <= i < |all| && 0 <= j < |all[i]| ensures IsFragment(all[i][j]) {
      assert all[i] == ClosedPieces(blocks[i]);
      CloseAllFragments(Split(blocks[i], '}'));
    }
    FlattenAll(IsFragment, all);
    var flat := Flatten(all);
    forall i | 0 <= i < |Divide(blocks)| ensures IsFragment(Divide(blocks)[i]) {
      var f := Divide(blocks)[i];
      assert f in flat;
      var j :| 0 <= j < |flat| && flat[j] == f;
    }
  }

  lemma DivideEmpty()
    ensures Divide([]) == []
  {
  }

  /** Splitting consecutive runs of blocks is splitting each run on its own. */
  lemma DivideAppend(a: seq<string>, b: seq<string>)
    ensures Divide(a + b) == Divide(a) + Divide(b)
  {
    MapAppend(ClosedPieces, a, b);
    FlattenAppend(AllClosedPieces(a), AllClosedPieces(b));
    FilterAppend(IsKept, Flatten(AllClosedPieces(a)), Flatten(AllClosedPieces(b)));
  }

  /** The fragments of each block, one block after the other. */
  function PerBlock(blocks: seq<string>): seq<string>
    decreases |blocks|
  {
    if |blocks| == 0 then [] else Divide([blocks[0]]) + PerBlock(blocks[1..])
  }

  /** The fragments of all blocks are each block's fragments, concatenated in block order. */
  lemma {:induction false} DivideIsPerBlock(blocks: seq<string>)
    ensures Divide(blocks) == PerBlock(blocks)
    decreases |blocks|
  {
    if |blocks| == 0 {
      DivideEmpty();
    } else {
      HeadTail(blocks);
      DivideAppend([blocks[0]], blocks[1..]);
      DivideIsPerBlock(blocks[1..]);
    }
  }

  /** The fragments one block yields, read off the pieces of its text cut at `}`:
      every piece that is not blank, without its leading whitespace, closed by `}`. */
  function NonBlankPieces(pieces: seq<string>): seq<string>
    decreases |pieces|
  {
    if |pieces| == 0 then []
    else (if AllWhitespace(pieces[0]) then [] else [LStrip(pieces[0]) + "}"]) + NonBlankPieces(pieces[1..])
  }

  lemma {:induction false} KeepClosedPieces(pieces: seq<string>)
    ensures Filter(IsKept, CloseAll(pieces)) == NonBlankPieces(pieces)
    decreases |pieces|
  {
    if |pieces| > 0 {
      var closed := CloseAll(pieces);
      MapCons(AddClosingTag, pieces);
      assert closed[0] == AddClosingTag(pieces[0]);
      assert closed[1..] == CloseAll(pieces[1..]);
      ClosedPieceKept(pieces[0]);
      KeepClosedPieces(pieces[1..]);
    }
  }

  lemma SingleBlock(block: string)
    ensures Divide([block]) == Filter(IsKept, ClosedPieces(block))
  {
    assert AllClosedPieces([block]) == [ClosedPieces(block)];
    FlattenSingle(ClosedPieces(block));
  }

  /** A piece is dropped exactly when it is blank; the others come out in order. */
  lemma BlockFragments(block: string)
    ensures Divide([block]) == NonBlankPieces(Split(block, '}'))
  {
    SingleBlock(block);
    KeepClosedPieces(Split(block, '}'));
  }

  /** One block never yields more fragments than it has pieces. */
  lemma BlockFragmentCount(block: string)
    ensures |Divide([block])| <= Count('}', block) + 1
  {
    SingleBlock(block);
    assert |ClosedPieces(block)| == |Split(block, '}')|;
  }

  lemma {:induction false} NonBlankPiecesAppend(xs: seq<string>, ys: seq<string>)
    ensures NonBlankPieces(xs + ys) == NonBlankPieces(xs) + NonBlankPieces(ys)
    decreases |xs|
  {
    if |xs| == 0 {
      assert xs + ys == ys;
    } else {
      assert (xs + ys)[1..] == xs[1..] + ys;
      NonBlankPiecesAppend(xs[1..], ys);
    }
  }

  /** The text of one rule before its closing brace: not blank and without `}`. It may
      start with the line breaks and indentation that separate it from the rule before. */
  predicate IsRuleBody(rule: string) {
    !AllWhitespace(rule) && '}' !in rule
  }

  /** Each rule without its leading whitespace, closed by its brace. */
  function CloseRules(rules: seq<string>): seq<string> {
    Map(rule => LStrip(rule) + "}", rules)
  }

  lemma {:induction false} NonBlankRuleBodies(rules: seq<string>)
    requires forall i :: 0 <= i < |rules| ==> IsRuleBody(rules[i])
    ensures NonBlankPieces(rules) == CloseRules(rules)
    decreases |rules|
  {
    if |rules| > 0 {
      MapCons(rule => LStrip(rule) + "}", rules);
      NonBlankRuleBodies(rules[1..]);
    }
  }

  lemma RulesThenBlank(rules: seq<string>, tail: string)
    requires forall i :: 0 <= i < |rules| ==> IsRuleBody(rules[i])
    requires AllWhitespace(tail)
    ensures NonBlankPieces(rules + [tail]) == CloseRules(rules)
  {
    NonBlankPiecesAppend(rules, [tail]);
    assert NonBlankPieces([tail]) == [];
    NonBlankRuleBodies(rules);
  }

  lemma RuleBodiesNoBrace(rules: seq<string>, tail: string)
    requires forall i :: 0 <= i < |rules| ==> IsRuleBody(rules[i])
    requires '}' !in tail
    ensures forall i :: 0 <= i < |rules + [tail]| ==> '}' !in (rules + [tail])[i]
  {
  }

  /** A block made of n rules, each closed by `}`, followed by blank text yields exactly
      those n rules as fragments, in order, each without its leading whitespace and with
      its closing brace. */
  lemma RulesRoundTrip(rules: seq<string>, tail: string)
    requires forall i :: 0 <= i < |rules| ==> IsRuleBody(rules[i])
    requires AllWhitespace(tail) && '}' !in tail
    ensures Divide([Join(rules + [tail], "}")]) == CloseRules(rules)
  {
    var pieces := rules + [tail];
    RuleBodiesNoBrace(rules, tail);
    JoinThenSplit(pieces, '}');
    BlockFragments(Join(pieces, "}"));
    RulesThenBlank(rules, tail);
  }

  /** A block holding a single rule that starts with its selector yields that rule as its
      only fragment. */
  lemma SingleRule(rule: string)
    requires IsRuleBody(rule) && !IsWhitespace(rule[0])
    ensures Divide([rule + "}"]) == [rule + "}"]
  {
    assert Join([rule, ""], "}") == rule + "}";
    RulesRoundTrip([rule], "");
    LStripNonWhitespaceStart(rule);
    assert CloseRules([rule]) == [LStrip(rule) + "}"];
  }

  /** The one-rule block `a{color:red}` yields exactly the fragment `a{color:red}`. */
  lemma SingleRuleExample()
    ensures Divide(["a{color:red}"]) == ["a{color:red}"]
  {
    var rule := "a{color:red";
    assert '}' !in rule && !IsWhitespace(rule[0]) && rule + "}" == "a{color:red}";
    SingleRule(rule);
  }

  /** Two rules written on separate lines, the second indented: the line break and the
      indentation between them do not reach the fragments. */
  lemma TwoRulesOnLines(first: string, indent: string, second: string, tail: string)
    requires IsRuleBody(first) && !IsWhitespace(first[0])
    requires IsRuleBody(second) && !IsWhitespace(second[0])
    requires AllWhitespace(indent) && AllWhitespace(tail) && '}' !in tail
    ensures Divide([first + "}" + indent + second + "}" + tail]) == [first + "}", second + "}"]
  {
    var rules := [first, indent + second];
    assert '}' !in indent by {
      assert !IsWhitespace('}');
    }
    assert !AllWhitespace(indent + second) by {
      assert (indent + second)[|indent|] == second[0];
    }
    assert Join(rules + [tail], "}") == first + "}" + indent + second + "}" + tail by {
      JoinCons(rules + [tail], "}");
      JoinCons([indent + second, tail], "}");
      assert Join([tail], "}") == tail;
    }
    RulesRoundTrip(rules, tail);
    LStripNonWhitespaceStart(first);
    LStripBlankPrefix(indent, second);
    LStripNonWhitespaceStart(second);
    assert CloseRules(rules) == [LStrip(first) + "}", LStrip(indent + second) + "}"];
  }
}

=== FILE: style_merge.dfy ===
/**
 Writing a rule's declarations into the `style` attribute of every element its plain
 selectors match: an element without a (truthy) style gets the declarations with their
 trailing semicolons removed; an element with one gets its old value, `"; "`, and the
 declarations, again without trailing semicolons.
 */
module StyleMerge {
  import opened Text
  import opened Seqs

  /** What `item.get("style")` returns: nothing, a string, or a list of strings. */
  datatype StyleAttr = Absent | Str(s: string) | Tokens(ts: seq<string>)

  /** The values `not previous_style_attr` holds for. */
  predicate Falsy(previous: StyleAttr) {
    previous.Absent? || previous == Str("") || previous == Tokens([])
  }

  /** The new value of the `style` attribute of one matched element. */
  function Merge(previous: StyleAttr, inline: string): (r: string)
    ensures r == [] || r[|r| - 1] != ';'
    ensures Falsy(previous) ==> r == RStripChar(inline, ';')
  {
    if Falsy(previous) then RStripChar(inline, ';')
    else match previous
      case Tokens(ts) => RStripChar(Join(ts + [inline], "; "), ';')
      case Str(s) => RStripChar(Join([s, inline], "; "), ';')
  }

  /** `rstrip(";")` on the joined value only reaches into the new declarations, since the
      separator `"; "` ends with a space. */
  lemma RStripAfterSeparator(before: string, inline: string)
    ensures RStripChar(before + "; " + inline, ';') == before + "; " + RStripChar(inline, ';')
  {
    var a := before + "; ";
    assert a[|a| - 1] == ' ';
    RStripCharAppend(a, inline, ';');
  }

  /** A non-empty string style is kept in front of the new declarations. */
  lemma MergeStr(s: string, inline: string)
    requires s != ""
    ensures Merge(Str(s), inline) == s + "; " + RStripChar(inline, ';')
  {
    assert Join([s, inline], "; ") == s + "; " + inline by {
      JoinCons([s, inline], "; ");
      assert [s, inline][1..] == [inline];
    }
    RStripAfterSeparator(s, inline);
  }

  /** A non-empty list style is joined by `"; "` and kept in front of the new declarations. */
  lemma MergeTokens(ts: seq<string>, inline: string)
    requires ts != []
    ensures Merge(Tokens(ts), inline) == Join(ts, "; ") + "; " + RStripChar(inline, ';')
  {
    JoinSnoc(ts, inline, "; ");
    RStripAfterSeparator(Join(ts, "; "), inline);
  }

  /** A list style whose joined text is not empty merges like that text as a string style. */
  lemma MergeTokensAsString(ts: seq<string>, inline: string)
    requires ts != [] && Join(ts, "; ") != ""
    ensures Merge(Tokens(ts), inline) == Merge(Str(Join(ts, "; ")), inline)
  {
    MergeTokens(ts, inline);
    MergeStr(Join(ts, "; "), inline);
  }

  /** A list holding one empty string is truthy although its joined text is empty, so it
      keeps a leading separator that the empty string style does not. */
  lemma MergeEmptyToken(inline: string)
    ensures Merge(Tokens([""]), inline) == "; " + RStripChar(inline, ';')
    ensures Merge(Str(""), inline) == RStripChar(inline, ';')
  {
    MergeTokens([""], inline);
    assert Join([""], "; ") == "";
  }

  /** A string style followed by one declaration written with its closing `;`: the old
      value, `"; "`, and the declaration without that `;`. */
  lemma MergeTerminated(s: string, declaration: string)
    requires s != "" && |declaration| > 0 && declaration[|declaration| - 1] != ';'
    ensures Merge(Str(s), declaration + ";") == s + "; " + declaration
  {
    MergeStr(s, declaration + ";");
    RStripCharAppend(declaration, ";", ';');
    assert RStripChar("", ';') == "";
    assert RStripChar(";", ';') == RStripChar("", ';');
  }

  /** `font-weight:bold` merged with `color:red;` gives `font-weight:bold; color:red`. */
  lemma MergeExample()
    ensures Merge(Str("font-weight:bold"), "color:red;") == "font-weight:bold; color:red"
  {
    var style, declaration := "font-weight:bold", "color:red";
    assert declaration + ";" == "color:red;";
    assert style + "; " + declaration == "font-weight:bold; color:red";
    MergeTerminated(style, declaration);
  }

  // ---------------------------------------------------------------- applying to a document

  /** The elements of a document, by position, through their `style` attribute. */
  type Doc = seq<StyleAttr>

  /** `soup.select`, left uninterpreted: the positions of the elements a selector matches.
      Matching is fixed for the whole run, so selectors that read the `style` attribute
      this run rewrites are outside the model. */
  type Matcher = string -> set<nat>

  /** The loop over `found_styled_items` for one selector. */
  function ApplySelector(doc: Doc, found: set<nat>, inline: string): (r: Doc)
    ensures |r| == |doc|
    decreases |doc|
  {
    if |doc| == 0 then []
    else
      ApplySelector(doc[..|doc| - 1], found, inline)
      + [if |doc| - 1 in found then Str(Merge(doc[|doc| - 1], inline)) else doc[|doc| - 1]]
  }

  /** `apply_selectors_to_elements_as_inline_css`. */
  function ApplySelectors(doc: Doc, matches: Matcher, selectors: seq<string>, inline: string): (r: Doc)
    ensures |r| == |doc|
    decreases |selectors|
  {
    if |selectors| == 0 then doc
    else ApplySelectors(ApplySelector(doc, matches(selectors[0]), inline), matches, selectors[1..], inline)
  }

  /** How many of the selectors match the element at position `i`. */
  function Hits(matches: Matcher, selectors: seq<string>, i: nat): nat
    decreases |selectors|
  {
    if |selectors| == 0 then 0
    else (if i in matches(selectors[0]) then 1 else 0) + Hits(matches, selectors[1..], i)
  }

  /** The style after the declarations have been merged in `n` times. */
  function MergeTimes(previous: StyleAttr, inline: string, n: nat): StyleAttr
    decreases n
  {
    if n == 0 then previous else MergeTimes(Str(Merge(previous, inline)), inline, n - 1)
  }

  /** One selector merges the declarations into exactly the elements it matches. */
  lemma {:induction false} ApplySelectorAt(doc: Doc, found: set<nat>, inline: string, i: nat)
    requires i < |doc|
    ensures ApplySelector(doc, found, inline)[i] == if i in found then Str(Merge(doc[i], inline)) else doc[i]
    decreases |doc|
  {
    var last := |doc| - 1;
    if i < last {
      ApplySelectorAt(doc[..last], found, inline, i);
    }
  }

  lemma HitsFirst(matches: Matcher, selectors: seq<string>, i: nat)
    requires |selectors| > 0
    ensures Hits(matches, selectors, i) == (if i in matches(selectors[0]) then 1 else 0) + Hits(matches, selectors[1..], i)
  {
  }

  lemma MergeTimesFirst(previous: StyleAttr, inline: string, n: nat)
    ensures MergeTimes(previous, inline, n + 1) == MergeTimes(Str(Merge(previous, inline)), inline, n)
  {
  }

  /** After all selectors, every element holds the declarations merged in once per selector
      that matches it, and an element no selector matches keeps its style as it was. */
  lemma {:induction false} ApplySelectorsAt(doc: Doc, matches: Matcher, selectors: seq<string>, inline: string, i: nat)
    requires i < |doc|
    ensures ApplySelectors(doc, matches, selectors, inline)[i] == MergeTimes(doc[i], inline, Hits(matches, selectors, i))
    decreases |selectors|
  {
    if |selectors| > 0 {
      var found := matches(selectors[0]);
      var next := ApplySelector(doc, found, inline);
      var later := Hits(matches, selectors[1..], i);
      ApplySelectorAt(doc, found, inline, i);
      ApplySelectorsAt(next, matches, selectors[1..], inline, i);
      assert ApplySelectors(doc, matches, selectors, inline) == ApplySelectors(next, matches, selectors[1..], inline);
      HitsFirst(matches, selectors, i);
      if i in found {
        MergeTimesFirst(doc[i], inline, later);
      }
    }
  }

  /** Elements no selector matches are left exactly as they were. */
  lemma ApplySelectorsUnmatched(doc: Doc, matches: Matcher, selectors: seq<string>, inline: string, i: nat)
    requires i < |doc|
    requires forall s :: s in selectors ==> i !in matches(s)
    ensures ApplySelectors(doc, matches, selectors, inline)[i] == doc[i]
  {
    ApplySelectorsAt(doc, matches, selectors, inline, i);
    HitsZero(matches, selectors, i);
  }

  lemma {:induction false} HitsZero(matches: Matcher, selectors: seq<string>, i: nat)
    ensures Hits(matches, selectors, i) == 0 <==> forall s :: s in selectors ==> i !in matches(s)
    decreases |selectors|
  {
    if |selectors| > 0 {
      HitsZero(matches, selectors[1..], i);
      assert forall s :: s in selectors <==> s == selectors[0] || s in selectors[1..] by {
        HeadTail(selectors);
      }
    }
  }

  /** An element without a style that two selectors of one group match gets the
      declarations twice, separated by `"; "`. */
  lemma MergeTwice(inline: string)
    requires RStripChar(inline, ';') != ""
    ensures MergeTimes(Absent, inline, 2) == Str(RStripChar(inline, ';') + "; " + RStripChar(inline, ';'))
  {
    var once := RStripChar(inline, ';');
    assert Merge(Absent, inline) == once;
    MergeStr(once, inline);
    assert MergeTimes(Absent, inline, 2) == MergeTimes(Str(once), inline, 1);
  }
}

=== FILE: text.dfy ===
/**
 The parts of Python's `str` that the inliner relies on, over `string = seq<char>`:
 `strip`, `split` with a one-character separator, `join`, `splitlines`,
 `replace(c, "")` and `rstrip(c)`.
 */
module Text {
  import opened Seqs

  /** Python's `str.isspace` set, which is what `strip()` with no argument removes. */
  predicate IsWhitespace(c: char) {
    || ('\t' <= c <= '\r')          // \t \n \x0b \x0c \r
    || ('\U{1C}' <= c <= ' ')       // \x1c .. \x1f and space
    || c == '\U{85}' || c == '\U{A0}' || c == '\U{1680}'
    || ('\U{2000}' <= c <= '\U{200A}')
    || c == '\U{2028}' || c == '\U{2029}' || c == '\U{202F}' || c == '\U{205F}' || c == '\U{3000}'
  }

  /** The line boundaries of Python's `str.splitlines` (`\r\n` is handled as one boundary by `SplitLines`). */
  predicate IsLineBreak(c: char) {
    || ('\n' <= c <= '\r')          // \n \x0b \x0c \r
    || ('\U{1C}' <= c <= '\U{1E}')
    || c == '\U{85}' || c == '\U{2028}' || c == '\U{2029}'
  }

  predicate AllWhitespace(s: string) {
    forall i :: 0 <= i < |s| ==> IsWhitespace(s[i])
  }

  /** Neither the first nor the last character is whitespace. */
  predicate NoEdgeWhitespace(s: string) {
    s == [] || (!IsWhitespace(s[0]) && !IsWhitespace(s[|s| - 1]))
  }

  /** Number of occurrences of `c` in `s`. */
  function Count(c: char, s: string): nat {
    if |s| == 0 then 0 else (if s[0] == c then 1 else 0) + Count(c, s[1..])
  }

  // ---------------------------------------------------------------- strip

  /** `s.lstrip()`: the suffix left once the leading whitespace is gone. */
  function LStrip(s: string): (r: string)
    ensures |r| <= |s|
    decreases |s|
  {
    if |s| > 0 && IsWhitespace(s[0]) then LStrip(s[1..]) else s
  }

  /** Left-stripping drops a blank prefix and keeps the rest, which is empty or starts with
      a non-whitespace character; it leaves nothing exactly when the text is blank. */
  lemma {:induction false} LStripSpec(s: string)
    ensures LStrip(s) == s[|s| - |LStrip(s)|..]
    ensures AllWhitespace(s[..|s| - |LStrip(s)|])
    ensures LStrip(s) == [] || !IsWhitespace(LStrip(s)[0])
    ensures LStrip(s) == [] <==> AllWhitespace(s)
    decreases |s|
  {
    if |s| > 0 && IsWhitespace(s[0]) {
      var r := LStrip(s[1..]);
      LStripSpec(s[1..]);
      assert s[1..][|s| - 1 - |r|..] == s[|s| - |r|..];
      assert s[..|s| - |r|] == [s[0]] + s[1..][..|s| - 1 - |r|];
      assert AllWhitespace(s) <==> AllWhitespace(s[1..]);
    }
  }

  /** `s.rstrip()`: the prefix left once the trailing whitespace is gone. */
  function RStrip(s: string): (r: string)
    ensures |r| <= |s|
    decreases |s|
  {
    if |s| > 0 && IsWhitespace(s[|s| - 1]) then RStrip(s[..|s| - 1]) else s
  }

  /** Right-stripping keeps a prefix that is empty or ends with a non-whitespace character. */
  lemma {:induction false} RStripSpec(s: string)
    ensures RStrip(s) == s[..|RStrip(s)|]
    ensures RStrip(s) == [] || !IsWhitespace(RStrip(s)[|RStrip(s)| - 1])
    decreases |s|
  {
    if |s| > 0 && IsWhitespace(s[|s| - 1]) {
      var r := RStrip(s[..|s| - 1]);
      RStripSpec(s[..|s| - 1]);
      assert s[..|s| - 1][..|r|] == s[..|r|];
    }
  }

  /** `s.strip()`. */
  function Strip(s: string): string {
    RStrip(LStrip(s))
  }

  /** What stripping leaves has no whitespace at either end. */
  lemma StripEdges(s: string)
    ensures NoEdgeWhitespace(Strip(s))
  {
    var l := LStrip(s);
    LStripSpec(s);
    RStripSpec(l);
    var r := RStrip(l);
    if r != [] {
      assert r[0] == l[0];
    }
  }

  /** Stripping leaves nothing exactly when the text is blank. */
  lemma StripBlank(s: string)
    ensures Strip(s) == [] <==> AllWhitespace(s)
  {
    var l := LStrip(s);
    LStripSpec(s);
    if l != [] {
      RStripNonBlank(l);
    }
  }

  /** Right-stripping text that starts with a non-whitespace character leaves something. */
  lemma {:induction false} RStripNonBlank(s: string)
    requires |s| > 0 && !IsWhitespace(s[0])
    ensures RStrip(s) != []
    decreases |s|
  {
    if IsWhitespace(s[|s| - 1]) {
      assert |s| > 1;
      RStripNonBlank(s[..|s| - 1]);
    }
  }

  /** Stripping keeps a middle slice of the text, so it brings in no character. */
  lemma StripKeepsOut(s: string, c: char)
    requires c !in s
    ensures c !in Strip(s)
  {
    var l := LStrip(s);
    LStripSpec(s);
    RStripSpec(l);
    var r := RStrip(l);
    assert l == r + l[|r|..];
    assert s == s[..|s| - |l|] + l;
  }

  /** Left-stripping a concatenation whose left part is not blank only touches the left part. */
  lemma {:induction false} LStripAppend(a: string, b: string)
    requires !AllWhitespace(a)
    ensures LStrip(a + b) == LStrip(a) + b
    decreases |a|
  {
    assert |a| > 0;
    if IsWhitespace(a[0]) {
      assert (a + b)[1..] == a[1..] + b;
      LStripAppend(a[1..], b);
    }
  }

  /** Left-stripping a concatenation whose left part is blank only keeps what is left of the right part. */
  lemma {:induction false} LStripBlankPrefix(a: string, b: string)
    requires AllWhitespace(a)
    ensures LStrip(a + b) == LStrip(b)
    decreases |a|
  {
    if |a| > 0 {
      assert (a + b)[1..] == a[1..] + b;
      LStripBlankPrefix(a[1..], b);
    } else {
      assert a + b == b;
    }
  }

  /** Left-stripping text that starts with a non-whitespace character leaves it as it is. */
  lemma LStripNonWhitespaceStart(s: string)
    requires |s| > 0 && !IsWhitespace(s[0])
    ensures LStrip(s) == s
  {
  }

  /** Right-stripping text that ends with a non-whitespace character leaves it as it is. */
  lemma RStripNonWhitespaceEnd(s: string)
    requires |s| > 0 && !IsWhitespace(s[|s| - 1])
    ensures RStrip(s) == s
  {
  }

  /** A non-whitespace character is all that left-stripping leaves of blank text followed by it. */
  lemma LStripBlankBeforeNonWhitespace(a: string, c: char)
    requires AllWhitespace(a) && !IsWhitespace(c)
    ensures LStrip(a + [c]) == [c]
  {
    LStripBlankPrefix(a, [c]);
    LStripNonWhitespaceStart([c]);
  }

  /** A non-whitespace character is all that stripping leaves of blank text followed by it. */
  lemma StripBlankBeforeNonWhitespace(a: string, c: char)
    requires AllWhitespace(a) && !IsWhitespace(c)
    ensures Strip(a + [c]) == [c]
  {
    LStripBlankBeforeNonWhitespace(a, c);
    RStripNonWhitespaceEnd([c]);
  }

  /** Stripping non-blank text followed by a non-whitespace character only removes leading whitespace. */
  lemma StripNonBlankBeforeNonWhitespace(a: string, c: char)
    requires !AllWhitespace(a) && !IsWhitespace(c)
    ensures Strip(a + [c]) == LStrip(a) + [c]
  {
    LStripAppend(a, [c]);
    RStripNonWhitespaceEnd(LStrip(a) + [c]);
  }

  /** Stripping text that ends in a non-whitespace character only removes its leading whitespace. */
  lemma StripBeforeNonWhitespace(a: string, c: char)
    requires !IsWhitespace(c)
    ensures Strip(a + [c]) == LStrip(a) + [c]
  {
    if AllWhitespace(a) {
      StripBlankBeforeNonWhitespace(a, c);
      LStripSpec(a);
    } else {
      StripNonBlankBeforeNonWhitespace(a, c);
    }
  }

  /** Stripping a string with no edge whitespace leaves it as it is. */
  lemma StripNoEdge(s: string)
    requires NoEdgeWhitespace(s)
    ensures Strip(s) == s
  {
    if s != [] {
      LStripNonWhitespaceStart(s);
      RStripNonWhitespaceEnd(s);
    }
  }

  // ---------------------------------------------------------------- join and split

  /** `sep.join(xs)`. */
  function Join(xs: seq<string>, sep: string): string
    decreases |xs|
  {
    if |xs| == 0 then "" else if |xs| == 1 then xs[0] else xs[0] + sep + Join(xs[1..], sep)
  }

  lemma JoinCons(xs: seq<string>, sep: string)
    requires |xs| > 1
    ensures Join(xs, sep) == xs[0] + sep + Join(xs[1..], sep)
  {
  }

  /** Joining one more piece at the end adds the separator and the piece. */
  lemma {:induction false} JoinSnoc(xs: seq<string>, x: string, sep: string)
    requires |xs| > 0
    ensures Join(xs + [x], sep) == Join(xs, sep) + sep + x
    decreases |xs|
  {
    if |xs| > 1 {
      assert (xs + [x])[1..] == xs[1..] + [x];
      JoinSnoc(xs[1..], x, sep);
    }
  }

  /** A join whose last piece is non-empty ends with that piece's last character. */
  lemma {:induction false} JoinLast(xs: seq<string>, sep: string)
    requires |xs| > 0 && |xs[|xs| - 1]| > 0
    ensures |Join(xs, sep)| > 0
    ensures Join(xs, sep)[|Join(xs, sep)| - 1] == xs[|xs| - 1][|xs[|xs| - 1]| - 1]
    decreases |xs|
  {
    if |xs| > 1 {
      JoinLast(xs[1..], sep);
    }
  }

  /** `s.split(c)` for a one-character separator: always at least one piece. */
  function Split(s: string, c: char): (r: seq<string>)
    ensures |r| == Count(c, s) + 1
    ensures forall i :: 0 <= i < |r| ==> c !in r[i]
    decreases |s|
  {
    if |s| == 0 then [""]
    else
      var rest := Split(s[1..], c);
      if s[0] == c then [""] + rest
      else [[s[0]] + rest[0]] + rest[1..]
  }

  /** Splitting on `c` and joining with `c` gives the original string back. */
  lemma {:induction false} SplitThenJoin(s: string, c: char)
    ensures Join(Split(s, c), [c]) == s
    decreases |s|
  {
    if |s| > 0 {
      var rest := Split(s[1..], c);
      SplitThenJoin(s[1..], c);
      if s[0] == c {
        assert ([""] + rest)[1..] == rest;
      } else {
        assert Join(rest, [c]) == s[1..];
        if |rest| > 1 {
          assert Join(rest, [c]) == rest[0] + [c] + Join(rest[1..], [c]);
          assert ([[s[0]] + rest[0]] + rest[1..])[1..] == rest[1..];
        }
      }
    }
  }

  /** A leading character other than the separator joins the first piece. */
  lemma SplitCons(x: char, s: string, c: char)
    requires x != c
    ensures Split([x] + s, c) == [[x] + Split(s, c)[0]] + Split(s, c)[1..]
  {
    assert ([x] + s)[1..] == s;
  }

  /** A separator-free prefix followed by the separator becomes the first piece. */
  lemma {:induction false} SplitAfterPiece(a: string, b: string, c: char)
    requires c !in a
    ensures Split(a + [c] + b, c) == [a] + Split(b, c)
    decreases |a|
  {
    if |a| == 0 {
      assert (a + [c] + b)[1..] == b;
    } else {
      assert (a + [c] + b)[1..] == a[1..] + [c] + b;
      SplitAfterPiece(a[1..], b, c);
      assert [a[0]] + a[1..] == a;
    }
  }

  /** A string without the separator splits into itself alone. */
  lemma {:induction false} SplitNoSeparator(a: string, c: char)
    requires c !in a
    ensures Split(a, c) == [a]
    decreases |a|
  {
    if |a| > 0 {
      SplitNoSeparator(a[1..], c);
      assert [a[0]] + a[1..] == a;
    }
  }

  /** Joining separator-free pieces with `c` and splitting on `c` gives the pieces back. */
  lemma {:induction false} JoinThenSplit(xs: seq<string>, c: char)
    requires |xs| > 0
    requires forall i :: 0 <= i < |xs| ==> c !in xs[i]
    ensures Split(Join(xs, [c]), c) == xs
    decreases |xs|
  {
    if |xs| == 1 {
      SplitNoSeparator(xs[0], c);
    } else {
      JoinThenSplit(xs[1..], c);
      SplitAfterPiece(xs[0], Join(xs[1..], [c]), c);
      assert [xs[0]] + xs[1..] == xs;
    }
  }

  // ---------------------------------------------------------------- removing characters

  /** `s.replace(c, "")`. */
  function RemoveChar(s: string, c: char): (r: string)
    ensures c !in r
    ensures |r| == |s| - Count(c, s)
    decreases |s|
  {
    if |s| == 0 then "" else (if s[0] == c then "" else [s[0]]) + RemoveChar(s[1..], c)
  }

  /** Removing every `c` is the same as concatenating the pieces of `s.split(c)`. */
  lemma {:induction false} RemoveCharIsJoinedSplit(s: string, c: char)
    ensures RemoveChar(s, c) == Join(Split(s, c), "")
    decreases |s|
  {
    if |s| > 0 {
      RemoveCharIsJoinedSplit(s[1..], c);
      var rest := Split(s[1..], c);
      if s[0] == c {
        assert ([""] + rest)[1..] == rest;
      } else if |rest| > 1 {
        assert ([[s[0]] + rest[0]] + rest[1..])[1..] == rest[1..];
        assert Join(rest, "") == rest[0] + "" + Join(rest[1..], "");
      }
    }
  }

  /** Removing a character that does not occur changes nothing. */
  lemma {:induction false} RemoveCharAbsent(s: string, c: char)
    requires c !in s
    ensures RemoveChar(s, c) == s
    decreases |s|
  {
    if |s| > 0 {
      RemoveCharAbsent(s[1..], c);
      HeadTail(s);
    }
  }

  /** `s.rstrip(c)`: the prefix left once every trailing `c` is gone. */
  function RStripChar(s: string, c: char): (r: string)
    ensures |r| <= |s| && r == s[..|r|]
    ensures forall k :: |r| <= k < |s| ==> s[k] == c
    ensures r == [] || r[|r| - 1] != c
    decreases |s|
  {
    if |s| > 0 && s[|s| - 1] == c then RStripChar(s[..|s| - 1], c) else s
  }

  /** Right-stripping `c` never reaches past a kept prefix that ends in another character. */
  lemma {:induction false} RStripCharAppend(a: string, b: string, c: char)
    requires |a| > 0 && a[|a| - 1] != c
    ensures RStripChar(a + b, c) == a + RStripChar(b, c)
    decreases |b|
  {
    if |b| > 0 && b[|b| - 1] == c {
      assert (a + b)[..|a + b| - 1] == a + b[..|b| - 1];
      RStripCharAppend(a, b[..|b| - 1], c);
    } else if |b| == 0 {
      assert a + b == a;
    }
  }

  // ---------------------------------------------------------------- lines

  /** `s.splitlines()`: line breaks are dropped, `\r\n` counts as one break, and a
      final break does not start an empty last line. */
  function SplitLines(s: string): (r: seq<string>)
    ensures r == [] <==> s == []
    ensures forall i, k :: 0 <= i < |r| && 0 <= k < |r[i]| ==> !IsLineBreak(r[i][k])
    decreases |s|
  {
    if |s| == 0 then []
    else if IsLineBreak(s[0]) then
      if s[0] == '\r' && |s| > 1 && s[1] == '\n' then [""] + SplitLines(s[2..])
      else [""] + SplitLines(s[1..])
    else
      var rest := SplitLines(s[1..]);
      if rest == [] then [[s[0]]] else [[s[0]] + rest[0]] + rest[1..]
  }

  /** Text without line breaks is a single line. */
  lemma {:induction false} SplitLinesNoBreak(s: string)
    requires |s| > 0
    requires forall k :: 0 <= k < |s| ==> !IsLineBreak(s[k])
    ensures SplitLines(s) == [s]
    decreases |s|
  {
    if |s| == 1 {
      assert s == [s[0]];
      assert SplitLines(s[1..]) == [];
    } else {
      assert forall k :: 0 <= k < |s[1..]| ==> !IsLineBreak(s[1..][k]);
      SplitLinesNoBreak(s[1..]);
      HeadTail(s);
    }
  }

  /** For text whose only line breaks are `\n` and which does not end with one,
      joining the lines with `\n` gives the text back. */
  lemma {:induction false} SplitLinesThenJoin(s: string)
    requires forall k :: 0 <= k < |s| && IsLineBreak(s[k]) ==> s[k] == '\n'
    requires s == [] || s[|s| - 1] != '\n'
    ensures Join(SplitLines(s), "\n") == s
    decreases |s|
  {
    if |s| > 0 {
      var t := s[1..];
      assert forall k :: 0 <= k < |t| && IsLineBreak(t[k]) ==> t[k] == '\n' by {
        forall k | 0 <= k < |t| && IsLineBreak(t[k]) ensures t[k] == '\n' {
          assert t[k] == s[k + 1];
        }
      }
      SplitLinesThenJoin(t);
      var rest := SplitLines(t);
      if IsLineBreak(s[0]) {
        assert t != [];
        assert ([""] + rest)[1..] == rest;
      } else if rest != [] && |rest| > 1 {
        assert ([[s[0]] + rest[0]] + rest[1..])[1..] == rest[1..];
      }
    }
  }
}

=== FILE: wrappers.dfy ===
/** The optional-value datatype shared by the other modules. */
module Wrappers {

  /** A value that may be missing, as Python's `dict.get` returns `None` for a missing key. */
  datatype Option<+T> = None | Some(value: T) {

    /** The carried value, or `default` when there is none. */
    function GetOr(default: T): T {
      match this
      case Some(v) => v
      case None => default
    }
  }
}
